=== FILE: README.md ===
# ecs_it core, modelled in Dafny

ecs_it is a small entity-component-system crate for turn-based games. The
World holds two things. The first is an entity allocator that hands out
integer ids and recycles dead ones. The second is a Warehouse: one Storage
per registered component type. A Storage is a vector of optional components
indexed by entity id. An Accessor guards each storage. It is a mutex-protected
state (a reader count, a read-allowed flag, a write-allowed flag and a count
of sleeping writers) plus two condition variables. Threads acquire shared
(read) or exclusive (write) guards, and dropping a guard releases the access
and wakes waiting threads.

This project models the following:

- the accessor state machine: acquires, the writer-priority releases, and the
  two older flag-inferring release variants;
- slot storage and the guards over it;
- the warehouse registry;
- the World operations, as their doc comments describe them;
- both entity allocators.

Modelling choices:

- Blocking is the outcome `Blocked`: a transition is enabled only when the
  condition variable's predicate holds.
- A panic is `Panic(fault)`. Reader-count overflow and underflow panic as
  they do in a debug build.
- A release returns its wake-up decision as a value rather than notifying.
- Type erasure becomes an integer tag compared for equality.

Modules and files:

- `Common` (common.dfy): ids, `Option`, the fault and outcome types.
- `Accessors` (accessors.dfy): the state, the acquires, and the
  writer-priority releases of `storage_guard.rs`.
- `AccessTraces` (access_traces.dfy): interleavings of acquires and releases.
- `CountedTraces` (counted_traces.dfy): interleavings of the corrected
  protocol, in which waiting writers are counted.
- `FlagReleases` (flag_releases.dfy): the releases that infer the guard kind
  from the flags, in `src/accessor.rs` and `src/accessor/mod.rs`.
- `VecStorages` (vec_storages.dfy): the typed `VecStorage` of `src/storage.rs`.
- `Storages` (storages.dfy): the type-erased storage and its guards.
- `Warehouses` (warehouses.dfy): the registry.
- `EntitySets` and `EntityCounters` (entity_sets.dfy, entity_counters.dfy):
  the allocators of `src/entity/mod.rs` and `src/entity.rs`.
- `Worlds` (worlds.dfy): the World.

Where the code departs from its own comments, the model records both the
code as written and the evident intent. The rest of the model is built on the
intended version, except the accessor protocol, whose releases are used as
written by `AccessTraces`, `Storages` and the World:

- `Storage::new` builds an empty vector whatever its size estimate. The World
  registers components with the intended constructor, `Storages.NewStorageSized`.
  See Findings.
- No code in the crate changes `writers_waiting`: the releases read it, but
  nothing counts a sleeping writer, so it stays 0. Its field comment says it
  counts sleeping writers. The releases are modelled as written, with the
  counterexample this causes. The counting bookkeeping a write acquire evidently
  intended is `Accessors.ParkWriter` / `Accessors.AdmitWriter`, and its
  interleavings are `CountedTraces`. See Findings.

The World bodies in `src/world.rs` are `todo!()`. The World operations are
therefore modelled from their doc comments and from the commented-out
`register_component` body. They are built from the operations above:

- A component write is a whole write session: acquire the exclusive guard,
  replace the slot, drop the guard.
- Creating an entity grows every storage by one empty slot. This keeps the
  warehouse invariant that every storage is exactly `capacity` long. It also
  empties the new id's slot in every storage, so a recycled id is blank as
  documented. See Findings.
- `world.rs` imports `entity::Entities`, but the crate has both
  `src/entity.rs` and `src/entity/mod.rs`. The World uses the allocator of
  `src/entity/mod.rs`, because only that one removes entities.

## Model

| member | source | states |
|---|---|---|
| Accessors.NewAccessor | src/storage/accessor.rs:26-38 | a new accessor keeps the type id it was built for. It starts Open: no readers, reads and writes allowed, no sleeping writers. It satisfies the protocol invariant |
| Accessors.ReadStep | src/accessor.rs:74-84 | a read acquire waits exactly while reads are refused. It panics when the reader counter is already at its maximum. Otherwise it admits one more reader and forbids writes. It keeps the protocol invariant and the counter bound |
| Accessors.WriteStep | src/accessor.rs:99-108 | a write acquire waits exactly while writes are refused. Otherwise it shuts out both readers and writers and marks the single writer active. From a protocol state it is enabled only when nobody holds access |
| Accessors.AcquireRead | src/accessor.rs:66-89 | a read acquire for another component type panics with a type mismatch, before any waiting. For the right type it is the read step |
| Accessors.AcquireWrite | src/accessor.rs:91-113 | a write acquire for another component type panics with a type mismatch. For the right type it is the write step |
| Accessors.WriterPriority | src/storage/storage_guard.rs:130-135 | a release wakes one writer exactly when some writer sleeps. Otherwise it wakes all readers |
| Accessors.ReleaseRead | src/storage/storage_guard.rs:100-136 | dropping a shared guard with no reader counted panics (counter underflow). Otherwise the reader count goes down by one. Writes become allowed exactly when the last reader leaves, or stay allowed if they already were. Reads are never refused by it. The wake follows writer priority and `writers_waiting` is unchanged |
| Accessors.ReleaseWrite | src/storage/storage_guard.rs:139-158 | dropping the exclusive guard allows both reads and writes and ends the writer's session, with writer-priority wake-up. From the Writing state it returns to Open |
| Accessors.ReadSessionRestores | src/storage/storage_guard.rs:100-136 | a read acquire followed by its release, from any protocol state that admits it, restores the state exactly |
| Accessors.WriteSessionRestores | src/storage/storage_guard.rs:139-158 | a write acquire followed by its release, from any protocol state that admits it (only Open does), restores the state exactly |
| Accessors.LastReaderLeavesBothEnabled | src/storage/storage_guard.rs:112-127 | when the last reader leaves, both reads and writes are allowed, so a waiting writer can proceed and no reader is locked out |
| Accessors.WriterPriorityNeverStrands | src/storage/storage_guard.rs:85-99 | in any protocol state where `writers_waiting` counts the waiting writers, no writer-priority release leaves the accessor idle with waiting threads none of whom is woken and able to proceed |
| Accessors.UncountedWriterIsStranded | src/storage/storage_guard.rs:147-157 | as written, with no sleeping writer counted: one writer holds the guard, a second sleeps and no reader waits. Dropping the guard wakes only readers, so the accessor goes idle and the sleeping writer is never woken |
| Accessors.UncountedReaderDropStrandsWriter | src/storage/storage_guard.rs:110-135 | as written, with no sleeping writer counted: one reader holds the guard and a writer sleeps. The last reader's drop re-allows writes but wakes only readers, so the accessor goes idle and the writer is never woken |
| Accessors.ParkWriter | src/storage/accessor.rs:47 | the intended bookkeeping: a writer about to wait counts itself in `writers_waiting`, changes nothing else, and keeps the protocol invariant |
| Accessors.AdmitWriter | src/storage/accessor.rs:47 | a counted writer waits exactly while writes are refused. It then takes the exclusive guard as a write acquire does and counts itself out |
| Accessors.CountingKeepsWritersMatched | src/storage/accessor.rs:47 | with that bookkeeping, one step keeps `writers_waiting` equal to the number of waiting writers: a writer that has to wait is counted in, and a waiting writer is admitted whenever writes are allowed and is counted out |
| Accessors.CountedWriterIsWoken | src/storage/storage_guard.rs:152-157 | in the counterexample state with the sleeping writer counted, dropping the guard wakes that writer, which can then take the guard |
| AccessTraces.Step | src/accessor.rs:74-108 | each event of an interleaving is enabled exactly when its guard condition holds. A release of a guard nobody holds is not enabled. Each step keeps the protocol invariant and the counter bound |
| AccessTraces.RunPreservesInv | src/storage/storage_guard.rs:85-99 | every interleaving of acquires and releases keeps the protocol invariant. So a writer never coexists with a reader or another writer, and the reader count never exceeds its bound |
| AccessTraces.NoLockoutFromOpen | src/storage/storage_guard.rs:116-127 | starting from a new accessor, every reachable state in which nobody holds access has reads and writes allowed. It has mutual exclusion and a bounded reader count |
| AccessTraces.DrainReturnsToOpen | src/storage/storage_guard.rs:100-158 | from any protocol state, dropping the held guards one by one returns the accessor to Open |
| CountedTraces.Step | src/storage/accessor.rs:47 | each event of the corrected protocol (arrive, wait, re-check after a wake-up, drop) is enabled exactly when its guard condition holds. Each step keeps the count of waiting writers matched and the protocol invariant |
| CountedTraces.RunKeepsMatched | src/storage/accessor.rs:47 | every interleaving of the corrected protocol keeps `writers_waiting` equal to the number of waiting writers |
| CountedTraces.ReachableNeverStrands | src/storage/storage_guard.rs:130-157 | in every configuration the corrected protocol reaches from a fresh accessor, no release of a held guard loses a wake-up, and an idle accessor lets a waiting writer in |
| CountedTraces.CountedScenarioAdmitsWriter | src/storage/storage_guard.rs:147-157 | in the stranding scenario, the counted second writer is admitted after the first writer's drop |
| CountedTraces.CountedReaderDropAdmitsWriter | src/storage/storage_guard.rs:110-135 | in the reader-drop scenario, the counted writer is admitted after the last reader's drop |
| FlagReleases.InferredNext | src/accessor.rs:136-186 | the release infers the guard kind from the two flags. Both cleared means a writer: both are set. Only reads allowed means a reader: the count goes down, writes are allowed again at zero, and at count zero it panics. Any other flag pair panics with that pair |
| FlagReleases.ReleaseFlipFlop | src/accessor.rs:127-188 | a writer's release wakes all readers. The last reader's release wakes one writer. Other readers' releases wake nobody |
| FlagReleases.ReleaseNotifyAll | src/accessor/mod.rs:114-155 | every release wakes all readers, and the last reader's release also wakes one writer |
| FlagReleases.InferredAgreesWithGuardRelease | src/accessor/mod.rs:122-148 | on every protocol state where a guard is held, inferring the guard kind from the flags yields the same next state as the release of the guard actually held |
| FlagReleases.ReleaseWhileWritableIsFatal | src/accessor.rs:183-185 | a flag-inferring release while writes are allowed (idle, or an impossible configuration) always panics |
| FlagReleases.FlipFlopStrandsWriter | src/accessor.rs:136-147 | the flip-flop writer release strands a writer. One writer holds access and another sleeps, with no reader waiting. The drop wakes only readers, so the accessor goes idle and the writer sleeps on |
| FlagReleases.NotifyAllStrandsWriter | src/accessor/mod.rs:123-153 | the same lost wake-up for the notify-all variant, whose writer release notifies only the readers' condition variable |
| FlagReleases.ReleaseFlipFlopFixed | src/accessor.rs:117-123 | the flip-flop release with the writer's drop waking one writer as well as all readers. It has the same next states as the original |
| FlagReleases.FlipFlopFixedNeverStrands | src/accessor.rs:117-123 | the corrected flip-flop release never leaves sleepers stranded: no writer or reader is starved by a lost wake-up |
| FlagReleases.ReleaseNotifyAllFixed | src/accessor/mod.rs:139-153 | the notify-all release with the writer's drop also waking one writer. It has the same next states as the original |
| FlagReleases.NotifyAllFixedNeverStrands | src/accessor/mod.rs:139-153 | the corrected notify-all release never leaves sleepers stranded |
| VecStorages.At | src/storage.rs:17-19 | indexing a slot vector panics exactly when the id is past its end. Otherwise it yields that slot |
| VecStorages.Put | src/storage.rs:21-23 | writing a slot panics exactly when the id is past the end. Otherwise only that slot changes and the length is kept |
| VecStorages.PutThenAt | src/storage.rs:17-23 | after a write, reading the written slot gives the written value, and reading any other slot gives what it held before |
| VecStorages.New | src/storage.rs:13-15 | a new typed storage has no slots, so every query on it panics |
| VecStorages.Query | src/storage.rs:17-19 | `query` reads entity `e`'s slot through the deref to the vector and panics past the end |
| VecStorages.MutQuery | src/storage.rs:21-23 | `mut_query` writes entity `e`'s slot through the mutable deref. Only that slot changes |
| VecStorages.MutQueryThenQuery | src/storage.rs:17-37 | a query after a mutable query sees the written value at that entity and the old values elsewhere |
| Storages.NewStorage | src/storage/mod.rs:32-41 | as written, a new storage records its component type and an Open accessor for the same type, but has no slots at all |
| Storages.NewStorageIgnoresEstimate | src/storage/mod.rs:33-34 | the size estimate is lost. A storage created for three entities has no slot for entity 0, and reading it panics |
| Storages.NewStorageSized | src/storage/mod.rs:32-41 | the intended constructor: as many empty slots as the estimate, every one reading as empty |
| Storages.Open | src/accessor.rs:66-113 | opening a guard waits exactly while its kind of access is refused, and panics on a type mismatch. It succeeds exactly when the acquire of its kind succeeds, and the accessor is then that acquire's result. For the right type the only panic is reader-count overflow. Once open, a guard is held (exclusive for a mutable guard), and the slots and component type are untouched |
| Storages.Get | src/storage/storage_guard.rs:38-40 | reading through a held guard yields slot `e`, and panics exactly when `e` is past the end |
| Storages.IterAgreesWithGet | src/storage/storage_guard.rs:38-44 | iterating a guard yields, id by id, exactly what `get` yields, and covers every id `get` accepts |
| Storages.Replace | src/storage/storage_guard.rs:76-82 | a write through the exclusive guard (via `iter_mut` or `raw_mut`) replaces slot `e` and returns its old content. Other slots, the length and the accessor are unchanged. Past the end it panics |
| Storages.ReplaceRoundTrip | src/storage/storage_guard.rs:72-82 | a read after a replace sees the new value, and writing the returned old value back restores the storage exactly |
| Storages.Exchange | src/storage/mod.rs:27 | a write session (acquire the exclusive guard, replace a slot, drop the guard) waits exactly while writes are refused. It panics on a type mismatch or an id past the end. It changes only that slot and leaves the accessor as it found it |
| Warehouses.New | src/warehouse.rs:31-38 | a new warehouse has capacity 0, no storages and no maintenance functions, and satisfies the warehouse invariant |
| Warehouses.CloneStorageArc | src/warehouse.rs:75-81 | the downcast succeeds exactly when the boxed storage is of the requested type, and otherwise panics |
| Warehouses.CheckoutStorage | src/warehouse.rs:40-49 | checking out an unregistered type panics. Under the invariant a registered type always yields a shared guard over its own storage |
| Warehouses.CheckoutStorageMut | src/warehouse.rs:51-60 | the same for an exclusive guard |
| Warehouses.CheckedOutGuardsMatchType | src/warehouse.rs:40-60 | a guard checked out for a type is never refused for a type mismatch when opened. An exclusive one opens at once on an idle storage |
| Warehouses.GrowAll | src/warehouse.rs:22-28 | growing keeps every storage exactly `capacity` long: existing slots keep their contents, new slots are empty, and the warehouse invariant is kept |
| EntitySets.New | src/entity/mod.rs:24-30 | a new allocator has issued nothing, and active and dead ids are disjoint |
| EntitySets.GetNextId | src/entity/mod.rs:53-61 | the next id is the most recently removed one, if any, and otherwise `num_entities` |
| EntitySets.NewEntityId | src/entity/mod.rs:32-38 | a new id is never already active. It becomes active, the issue count goes up by one, and the invariant (active and dead disjoint) is kept |
| EntitySets.RmEntity | src/entity/mod.rs:40-51 | removal reports true exactly for an active id, which moves to the dead stack. Any other id changes nothing and does not panic |
| EntitySets.RecyclingIsLifo | src/entity/mod.rs:45-58 | of two removed ids, the one removed last is handed out first |
| EntitySets.ApplyKeepsInv | src/entity/mod.rs:14-17 | after any sequence of creations and removals, active and dead ids stay disjoint, so a new id never collides with a live entity |
| EntityCounters.New | src/entity.rs:22-28 | a new counter allocator has issued nothing and has no dead ids |
| EntityCounters.GetNextId | src/entity.rs:53-64 | the next id is the most recently dead one if any, and otherwise `num_entities`. Popping a dead id removes it from the dead list and leaves the count alone |
| EntityCounters.NewEntityId | src/entity.rs:30-37 | a new id comes from `get_next_id`, and the issue count goes up by one |
| EntityCounters.RmEntity | src/entity.rs:39-51 | removal is not implemented: it always reports false and changes nothing |
| EntityCounters.IssueCountsUp | src/entity.rs:53-64 | with no dead ids, any sequence of calls issues consecutive ids starting at `num_entities`, whatever removals are interleaved |
| EntityCounters.ThreeAllocations | src/lib.rs:173-183 | on a fresh allocator, three allocations yield 0, 1 and 2 |
| Worlds.New | src/world.rs:31-39 | a new world has an empty allocator and an empty warehouse. It satisfies the world invariant, holds no guard, and is maintained |
| Worlds.CreateEntityUncleared | src/entity/mod.rs:53-61 | issuing an id and growing every storage by one slot, and nothing more. A recycled id keeps its slots' contents. The id is within every storage and not already live, and the invariant and quiescence are kept |
| Worlds.RecycledEntityKeepsComponents | src/world.rs:48-61 | without clearing, a removed entity's id is handed out again before `maintain_ecs` with its old component still in place. So the new entity is not blank |
| Worlds.CreateEntity | src/world.rs:48-54 | creating an entity issues an id from the allocator, gives every storage a slot for it, and empties that slot everywhere. The id is within every storage and not already live. The invariant and quiescence are kept |
| Worlds.CreatedEntityIsBlank | src/world.rs:48-51 | on every consistent world, a newly created entity has no component in any storage, whether its id is fresh or recycled. Every other entity's slots are as they were |
| Worlds.RecycledEntityIsBlank | src/world.rs:48-61 | in the same scenario, the corrected `create_entity` hands back the recycled id blank |
| Worlds.FreshIdIsStorageLength | src/entity.rs:61-63 | when no dead id is available, the new id equals the length every storage had before the entity was added. Its slot is the one appended |
| Worlds.RmEntity | src/world.rs:56-61 | removing an entity delegates to the allocator and leaves every component where it is until maintenance |
| Worlds.RegisterComponent | src/world.rs:63-104 | registering a type twice panics. Otherwise the type gets an empty storage with one slot per entity and a maintenance function. Nothing else changes, and the invariant and maintenance are kept |
| Worlds.RegisterTwicePanics | src/world.rs:68-79 | registering a type right after registering it panics |
| Worlds.SetComponent | src/world.rs:106-116 | writing a component slot panics for an unregistered type and returns the old content. On a consistent world with no guard held it succeeds exactly for ids within the storages, and changes only that slot of that storage |
| Worlds.AddComponent | src/world.rs:106-110 | adding a component stores it in the entity's slot and returns the component it replaced, if any. The allocator, the other slots and the other storages are unchanged, and the invariant is kept |
| Worlds.RmComponent | src/world.rs:112-116 | removing a component empties the entity's slot and returns what it held, or None. The allocator, the other slots and the other storages are unchanged, and the invariant is kept |
| Worlds.AddThenRemove | src/world.rs:106-116 | a component added and then removed comes back out unchanged, and the storage is as before except that the slot is now empty |
| Worlds.FirstEntitiesCountUp | src/lib.rs:173-183 | a new world's first three entities get ids 0, 1 and 2, and every storage then has three slots |
| Worlds.ClearSlots | src/world.rs:91-97 | the body of a maintenance function, one write session per dead entity, empties every dead entity's slot. It keeps every live slot, the length and the accessor |
| Worlds.MaintainStorage | src/world.rs:90-102 | one type's maintenance function empties that storage's slot for every dead entity. No other storage changes, and that storage's live slots and accessor are as they were |
| Worlds.MaintainEcs | src/world.rs:118-191 | maintenance, run with all guards dropped, empties every dead entity's slot in every storage. Live entities' components, the allocator, every storage's accessor and component type, the capacity and the maintenance list are untouched, and the world invariant holds with no guard held |

## Left out

- Condition variables, thread scheduling and spurious wake-ups. A blocked acquire is the outcome `Blocked`, and a wake-up is a returned `Wake` value. Mutex poisoning (`expect` on a poisoned lock) is not modelled.
- Increments of `writers_waiting`: no code in the crate changes it, so no transition of the as-written protocol (`AccessTraces`) does. The counting bookkeeping exists only as `Accessors.ParkWriter` / `Accessors.AdmitWriter` and in `CountedTraces`.
- Accessors.WriterPriorityNeverStrands: its hypothesis (that `writers_waiting` equals the number of waiting writers) is never established by the crate as written, where the field stays 0. It holds in every configuration of the corrected protocol (`CountedTraces.RunKeepsMatched`), not in the as-written one used by `AccessTraces` and the World. As written, the release strands a writer (`Accessors.UncountedWriterIsStranded`).
- Worlds.RegisterComponent: builds the new storage with the intended constructor `Storages.NewStorageSized`, not the as-written `Storages.NewStorage`. An empty storage filed in a warehouse of nonzero capacity would break the warehouse invariant that every storage is `capacity` long.
- Storages.Replace: `MutableStorageGuard::get_mut` returns a shared reference, so no write goes through it. The model's write stands for an assignment through `iter_mut` or `raw_mut`, and `Storages.Get` models `get_mut` as a read.
- Release-build wrap-around of the `u8`/`u16` reader counters and of `usize` ids. Debug-build panics are modelled, and ids are unbounded.
- `Arc`, `UnsafeCell`, `Box<dyn Any>` and `TypeId` are modelled as plain values, an integer tag, and a generic component type `V`.
- `raw`, `raw_mut` and `Deref` expose the whole vector. In the model the vector is the `inner`/`slots` field itself.
- Storages.Iter: yields the slot vector and has no contract of its own. What it promises is stated by `Storages.IterAgreesWithGet`.
- `ImmutableStorageGuard::new` and `MutableStorageGuard::new` in `storage_guard.rs` take no lock. The model attaches acquisition to opening a guard (`Storages.Open`), as in `src/accessor.rs`.
- `World::open_warehouse` only locks a mutex. The model reads the warehouse directly.
- Worlds.CreateEntity: empties the new id's slots directly, not as write sessions. It also grows every storage eagerly, in place of the lazy growth the comments in `src/entity.rs` consider, and models that growth as a change of capacity.
- Worlds.MaintainEcs: requires every guard to be dropped first, as the doc example asks. It does not model what happens if a guard is still held (in the crate that thread would block).
- `src/entity/builder.rs`, `src/macro_practice.rs`, `src/error.rs`, `src/component.rs` and `src/system/mod.rs` are not part of this model.
- The doc example of `maintain_ecs` prints components. Printing is not modelled; its assertions about which entities remain are covered by `Worlds.MaintainEcs`.
- `num_entities` in `src/entity/mod.rs` grows on every allocation, recycled ones included, so fresh ids skip values after a recycle. The model keeps this and relates storage capacity to it.

## Findings

| source | as written | input that shows it | evidently intended | confidence | as-written member | corrected member |
|---|---|---|---|---|---|---|
| src/storage/mod.rs:33-34 | `Vec::with_capacity(n)` then `fill_with(\|\| None)` leaves the vector empty | `Storage::new(t, 3)`, then reading entity 0's slot panics out of bounds | a vector of `n` empty slots | high (not executed) | Storages.NewStorage, Storages.NewStorageIgnoresEstimate | Storages.NewStorageSized |
| src/accessor.rs:136-147 | a writer's drop notifies only the readers' condition variable | one writer holds the guard, a second writer sleeps, no reader waits; the drop leaves the accessor idle and the writer asleep | the writer's drop also wakes a writer | medium (not executed) | FlagReleases.ReleaseFlipFlop, FlagReleases.FlipFlopStrandsWriter | FlagReleases.ReleaseFlipFlopFixed, FlagReleases.FlipFlopFixedNeverStrands |
| src/accessor/mod.rs:123-153 | a writer's drop notifies only the readers' condition variable | the same: writer holding, writer sleeping, no reader waiting | the writer's drop also wakes a writer | medium (not executed) | FlagReleases.ReleaseNotifyAll, FlagReleases.NotifyAllStrandsWriter | FlagReleases.ReleaseNotifyAllFixed, FlagReleases.NotifyAllFixedNeverStrands |
| src/storage/storage_guard.rs:110-157 | `writers_waiting` is never incremented, so both drops always take the `notify_all` branch for readers | one writer holds the guard, a second writer sleeps, no reader waits: the drop leaves the accessor idle and the writer asleep. Likewise one reader holds the guard and a writer sleeps: the last reader's drop re-allows writes, wakes only readers, and the writer sleeps on | a write acquire counts itself in `writers_waiting` while it waits, so either drop wakes it | medium (not executed) | Accessors.ReleaseWrite, Accessors.ReleaseRead, Accessors.UncountedWriterIsStranded, Accessors.UncountedReaderDropStrandsWriter | Accessors.ParkWriter, Accessors.AdmitWriter, Accessors.CountingKeepsWritersMatched, Accessors.WriterPriorityNeverStrands, Accessors.CountedWriterIsWoken, CountedTraces.RunKeepsMatched, CountedTraces.ReachableNeverStrands, CountedTraces.CountedReaderDropAdmitsWriter |
| src/entity/mod.rs:53-61 | `get_next_id` hands a removed id out again at once, while `World::rm_entity` leaves its components in place until `maintain_ecs` | register a type, create entity 0, add a component to it, remove it, create an entity: id 0 returns holding the old component | `create_entity` yields a blank entity, so the recycled id's slots are emptied | medium (not executed) | Worlds.CreateEntityUncleared, Worlds.RecycledEntityKeepsComponents | Worlds.CreateEntity, Worlds.CreatedEntityIsBlank, Worlds.RecycledEntityIsBlank |

=== FILE: access_traces.dfy ===
/** Interleavings of guard acquisitions and drops on one storage. Every
    transition runs under the accessor's mutex, so an interleaving of threads is
    a sequence of atomic steps; a step is taken only when it is enabled (an
    acquire whose condition-variable predicate holds, a drop of a guard that is
    actually held). */
module AccessTraces {
  import opened Common
  import opened Accessors

  datatype Event = BeginRead | BeginWrite | EndRead | EndWrite

  /** One atomic step, or None when the event cannot happen in state `s`. */
  function Step(s: State, e: Event, readerMax: nat): (r: Option<State>)
    ensures e == BeginRead ==> (r.Some? <==> s.readAllowed && s.readers < readerMax)
    ensures e == BeginWrite ==> (r.Some? <==> s.writeAllowed)
    ensures e == EndRead ==> (r.Some? <==> s.readers > 0)
    ensures e == EndWrite ==> (r.Some? <==> s.writerActive)
    ensures r.Some? && Inv(s) ==> Inv(r.value)
    ensures r.Some? && Fits(s, readerMax) ==> Fits(r.value, readerMax)
    ensures r.Some? ==> r.value.writersWaiting == s.writersWaiting
  {
    match e
    case BeginRead =>
      (match ReadStep(s, readerMax) case Done(n) => Some(n) case _ => None)
    case BeginWrite =>
      (match WriteStep(s) case Done(n) => Some(n) case _ => None)
    case EndRead =>
      if s.readers == 0 then None
      else (match ReleaseRead(s) case Done(rel) => Some(rel.next) case _ => None)
    case EndWrite =>
      if s.writerActive then Some(ReleaseWrite(s).next) else None
  }

  /** The state after a whole interleaving, or None if some step was not enabled. */
  function Run(s: State, t: seq<Event>, readerMax: nat): Option<State>
    decreases |t|
  {
    if t == [] then Some(s)
    else match Step(s, t[0], readerMax)
      case None => None
      case Some(n) => Run(n, t[1..], readerMax)
  }

  /** Every state reached by a valid interleaving from a protocol state is a
      protocol state: Open, Reading(n) or Writing. */
  lemma {:induction false} RunPreservesInv(s: State, t: seq<Event>, readerMax: nat)
    requires Inv(s) && Fits(s, readerMax)
    ensures Run(s, t, readerMax).Some? ==>
              Inv(Run(s, t, readerMax).value) && Fits(Run(s, t, readerMax).value, readerMax)
    decreases |t|
  {
    if t != [] {
      match Step(s, t[0], readerMax)
      case None =>
      case Some(n) => RunPreservesInv(n, t[1..], readerMax);
    }
  }

  /** From a fresh accessor, no valid interleaving reaches a state where nobody
      holds access but reads (or writes) are refused, and a writer never
      coexists with a reader; the reader count never exceeds its width. */
  lemma NoLockoutFromOpen(t: seq<Event>, readerMax: nat)
    ensures Run(Init(), t, readerMax).Some? ==>
              var s := Run(Init(), t, readerMax).value;
              && (Idle(s) ==> s.readAllowed && s.writeAllowed)
              && (s.writerActive ==> s.readers == 0 && !s.readAllowed && !s.writeAllowed)
              && (s.readers > 0 ==> !s.writeAllowed && !s.writerActive)
              && s.readers <= readerMax
  {
    RunPreservesInv(Init(), t, readerMax);
  }

  /** The drops that release every guard held in `s`. */
  function Drain(s: State): (t: seq<Event>)
    ensures s.writerActive ==> t == [EndWrite]
    ensures !s.writerActive ==> |t| == s.readers && forall i :: 0 <= i < |t| ==> t[i] == EndRead
    decreases s.readers
  {
    if s.writerActive then [EndWrite]
    else if s.readers == 0 then []
    else [EndRead] + Drain(s.(readers := s.readers - 1))
  }

  /** Self-healing: dropping every held guard returns any protocol state to
      Open, with the same count of waiting writers. */
  lemma {:induction false} DrainReturnsToOpen(s: State, readerMax: nat)
    requires Inv(s)
    ensures Run(s, Drain(s), readerMax) == Some(State(0, true, true, s.writersWaiting, false))
    decreases s.readers
  {
    if s.writerActive {
      assert Drain(s)[1..] == [];
    } else if s.readers > 0 {
      var n := Step(s, EndRead, readerMax).value;
      assert Drain(s)[1..] == Drain(n);
      DrainReturnsToOpen(n, readerMax);
    }
  }
}

=== FILE: accessors.dfy ===
/** The per-storage access-control state machine: the four-field accessor
    state of src/storage/accessor.rs, the blocking acquires of src/accessor.rs
    (read as "enabled only while the condition variable's predicate holds") and
    the releases performed by the `Drop` impls of src/storage/storage_guard.rs
    (which return the wake-up decision instead of notifying a condition variable). */
module Accessors {
  import opened Common

  /** Largest value of the `u16` reader counter of src/storage/accessor.rs. */
  const U16Max: nat := 65535

  /** The state guarded by the accessor's mutex. `writerActive` is not stored by
      the crate: it is an auxiliary flag recording that an exclusive guard is held
      (at most one writer is ever active), so that mutual exclusion can be stated. */
  datatype State = State(
    readers: nat,          // currently reading readers, not sleeping ones
    readAllowed: bool,
    writeAllowed: bool,
    writersWaiting: nat,   // sleeping writers; no as-written transition changes it
    writerActive: bool)

  /** An accessor: the type tag it was built for and its state. */
  datatype Accessor = Accessor(typeId: TypeTag, state: State)

  /** Which condition variables a release notifies. */
  datatype Wake = Nobody | OneWriter | AllReaders | OneWriterAndAllReaders

  /** The effect of dropping a guard: the new state and who is woken. */
  datatype Release = Release(next: State, wake: Wake)

  /** No guard of either kind is held. */
  predicate Idle(s: State) {
    s.readers == 0 && !s.writerActive
  }

  /** The only states the protocol can be in: Open (idle, both flags set),
      Reading(n) (n > 0 readers, only reads allowed) and Writing (one writer,
      both flags cleared). The third clause is the "no lockout" promise of the
      comment in src/storage/storage_guard.rs: nobody holds access, yet reads
      are refused, never happens. */
  predicate Inv(s: State) {
    && (s.writerActive ==> s.readers == 0 && !s.readAllowed && !s.writeAllowed)
    && (s.readers > 0 ==> !s.writerActive && s.readAllowed && !s.writeAllowed)
    && (Idle(s) ==> s.readAllowed && s.writeAllowed)
  }

  /** The reader counter fits its integer width. */
  predicate Fits(s: State, readerMax: nat) {
    s.readers <= readerMax
  }

  /** The state a fresh accessor's mutex is created with. */
  function Init(): State {
    State(0, true, true, 0, false)
  }

  /** `Accessor::new`: keeps the type id and starts Open. */
  function NewAccessor(typeId: TypeTag): (a: Accessor)
    ensures a.typeId == typeId
    ensures a.state.readers == 0 && a.state.writersWaiting == 0 && !a.state.writerActive
    ensures a.state.readAllowed && a.state.writeAllowed
    ensures Inv(a.state)
  {
    Accessor(typeId, Init())
  }

  /** The flag transition of a read acquire: wait while reads are refused, then
      clear `write_allowed` and count one more reader. The increment overflows
      (a panic in a debug build) when the counter is already at its maximum. */
  function ReadStep(s: State, readerMax: nat): (r: Outcome<State>)
    ensures r == Blocked <==> !s.readAllowed
    ensures r.Panic? <==> s.readAllowed && s.readers >= readerMax
    ensures r.Panic? ==> r.fault == ReaderOverflow
    ensures r.Done? ==> r.value.readers == s.readers + 1 && !r.value.writeAllowed
    ensures r.Done? ==> r.value.readAllowed == s.readAllowed && r.value.writersWaiting == s.writersWaiting
    ensures r.Done? ==> r.value.writerActive == s.writerActive
    ensures r.Done? && Inv(s) ==> Inv(r.value)
    ensures r.Done? && Fits(s, readerMax) ==> Fits(r.value, readerMax)
  {
    if !s.readAllowed then Blocked
    else if s.readers >= readerMax then Panic(ReaderOverflow)
    else Done(s.(writeAllowed := false, readers := s.readers + 1))
  }

  /** The flag transition of a write acquire: wait while writes are refused, then
      clear both flags. The reader count is not touched. */
  function WriteStep(s: State): (r: Outcome<State>)
    ensures r == Blocked <==> !s.writeAllowed
    ensures !r.Panic?
    ensures r.Done? ==> !r.value.readAllowed && !r.value.writeAllowed && r.value.writerActive
    ensures r.Done? ==> r.value.readers == s.readers && r.value.writersWaiting == s.writersWaiting
    ensures r.Done? && Inv(s) ==> Inv(r.value) && s.readers == 0
  {
    if !s.writeAllowed then Blocked
    else Done(s.(readAllowed := false, writeAllowed := false, writerActive := true))
  }

  /** `AccessGuard::val` of src/accessor.rs: the requested type must be the
      accessor's own (`assert_eq!`), then the read transition is taken. */
  function AcquireRead(a: Accessor, requested: TypeTag, readerMax: nat): (r: Outcome<Accessor>)
    ensures a.typeId != requested ==> r == Panic(TypeMismatch)
    ensures r.Done? <==> a.typeId == requested && ReadStep(a.state, readerMax).Done?
    ensures r == Blocked <==> a.typeId == requested && !a.state.readAllowed
    ensures r.Done? ==> r.value.typeId == a.typeId && r.value.state == ReadStep(a.state, readerMax).value
  {
    if a.typeId != requested then Panic(TypeMismatch)
    else match ReadStep(a.state, readerMax)
      case Done(n) => Done(a.(state := n))
      case Blocked => Blocked
      case Panic(f) => Panic(f)
  }

  /** `AccessGuard::val_mut` of src/accessor.rs: type check, then the write transition. */
  function AcquireWrite(a: Accessor, requested: TypeTag): (r: Outcome<Accessor>)
    ensures a.typeId != requested ==> r == Panic(TypeMismatch)
    ensures r.Done? <==> a.typeId == requested && a.state.writeAllowed
    ensures r == Blocked <==> a.typeId == requested && !a.state.writeAllowed
    ensures r.Done? ==> r.value.typeId == a.typeId && r.value.state == WriteStep(a.state).value
  {
    if a.typeId != requested then Panic(TypeMismatch)
    else match WriteStep(a.state)
      case Done(n) => Done(a.(state := n))
      case Blocked => Blocked
      case Panic(f) => Panic(f)
  }

  /** Writer priority: one sleeping writer is woken if any is waiting,
      otherwise every sleeping reader is. */
  function WriterPriority(writersWaiting: nat): (k: Wake)
    ensures k == OneWriter <==> writersWaiting > 0
    ensures k == AllReaders <==> writersWaiting == 0
  {
    if writersWaiting > 0 then OneWriter else AllReaders
  }

  /** `Drop for ImmutableStorageGuard`: one reader fewer; the last reader
      re-allows writes but leaves `read_allowed` alone, so late readers may
      still race the woken writer. Decrementing a zero counter is a panic. */
  function ReleaseRead(s: State): (r: Outcome<Release>)
    ensures r.Panic? <==> s.readers == 0
    ensures r.Panic? ==> r.fault == ReaderUnderflow
    ensures !r.Blocked?
    ensures r.Done? ==> r.value.next.readers == s.readers - 1
    ensures r.Done? ==> (r.value.next.writeAllowed <==> r.value.next.readers == 0 || s.writeAllowed)
    ensures r.Done? ==> r.value.next.readAllowed == s.readAllowed
    ensures r.Done? ==> r.value.next.writersWaiting == s.writersWaiting && r.value.next.writerActive == s.writerActive
    ensures r.Done? ==> (r.value.wake == OneWriter <==> s.writersWaiting > 0)
    ensures r.Done? ==> (r.value.wake == AllReaders <==> s.writersWaiting == 0)
    ensures Inv(s) && s.readers > 0 ==> r.Done? && Inv(r.value.next)
  {
    if s.readers == 0 then Panic(ReaderUnderflow)
    else
      var n := s.readers - 1;
      Done(Release(s.(readers := n, writeAllowed := if n == 0 then true else s.writeAllowed),
                   WriterPriority(s.writersWaiting)))
  }

  /** `Drop for MutableStorageGuard`: both flags are set again and the writer
      is gone; the same writer-priority wake-up as a read release. */
  function ReleaseWrite(s: State): (r: Release)
    ensures r.next.readAllowed && r.next.writeAllowed && !r.next.writerActive
    ensures r.next.readers == s.readers && r.next.writersWaiting == s.writersWaiting
    ensures r.wake == OneWriter <==> s.writersWaiting > 0
    ensures r.wake == AllReaders <==> s.writersWaiting == 0
    ensures Inv(s) && s.writerActive ==> Inv(r.next) && Idle(r.next)
  {
    Release(s.(readAllowed := true, writeAllowed := true, writerActive := false),
            WriterPriority(s.writersWaiting))
  }

  /** A read guard taken and dropped again leaves the state exactly as it was. */
  lemma ReadSessionRestores(s: State, readerMax: nat)
    requires Inv(s) && ReadStep(s, readerMax).Done?
    ensures ReleaseRead(ReadStep(s, readerMax).value) == Done(Release(s, WriterPriority(s.writersWaiting)))
  {
  }

  /** A write guard taken and dropped again leaves the state exactly as it was. */
  lemma WriteSessionRestores(s: State)
    requires Inv(s) && WriteStep(s).Done?
    ensures ReleaseWrite(WriteStep(s).value) == Release(s, WriterPriority(s.writersWaiting))
  {
  }

  /** The deliberate relaxation: when the last reader leaves, both a read and a
      write acquire are enabled, so a late reader may win the race against the
      writer that was just woken. */
  lemma LastReaderLeavesBothEnabled(s: State, readerMax: nat)
    requires Inv(s) && s.readers == 1 && readerMax > 0
    ensures ReleaseRead(s).Done?
    ensures ReadStep(ReleaseRead(s).value.next, readerMax).Done?
    ensures WriteStep(ReleaseRead(s).value.next).Done?
  {
  }

  /** Threads asleep on the two condition variables. */
  datatype Waiters = Waiters(readers: nat, writers: nat)

  /** Sleeping threads are consistent with the state they fell asleep in: a
      reader only sleeps while reads are refused, a writer while writes are. */
  predicate Asleep(s: State, w: Waiters) {
    (w.readers > 0 ==> !s.readAllowed) && (w.writers > 0 ==> !s.writeAllowed)
  }

  predicate WakesWriter(k: Wake) {
    k == OneWriter || k == OneWriterAndAllReaders
  }

  predicate WakesReaders(k: Wake) {
    k == AllReaders || k == OneWriterAndAllReaders
  }

  /** The wake-up reaches at least one sleeper who can then proceed. */
  predicate Rouses(next: State, k: Wake, w: Waiters) {
    || (WakesWriter(k) && w.writers > 0 && next.writeAllowed)
    || (WakesReaders(k) && w.readers > 0 && next.readAllowed)
  }

  /** A lost wake-up: nobody holds access and someone sleeps, yet no sleeper who
      could proceed is woken, so every sleeper stays asleep. */
  predicate Strands(next: State, k: Wake, w: Waiters) {
    Idle(next) && (w.readers > 0 || w.writers > 0) && !Rouses(next, k, w)
  }

  /** With `writers_waiting` counting the waiting writers, the writer-priority
      releases never lose a wake-up. */
  lemma WriterPriorityNeverStrands(s: State, w: Waiters)
    requires Inv(s) && s.writersWaiting == w.writers
    ensures s.readers > 0 ==>
              ReleaseRead(s).Done? && !Strands(ReleaseRead(s).value.next, ReleaseRead(s).value.wake, w)
    ensures s.writerActive ==> !Strands(ReleaseWrite(s).next, ReleaseWrite(s).wake, w)
  {
  }

  /** Counterexample for the writer-priority releases as written: nothing in
      the crate counts a sleeping writer, so `writers_waiting` stays 0. A writer
      holds the guard while a second writer sleeps and no reader waits; the
      drop wakes only the readers, the accessor goes idle and the writer sleeps on. */
  lemma UncountedWriterIsStranded()
    ensures var s := State(0, false, false, 0, true);
            && Inv(s) && Asleep(s, Waiters(0, 1))
            && Strands(ReleaseWrite(s).next, ReleaseWrite(s).wake, Waiters(0, 1))
  {
  }

  /** The same lost wake-up on a reader's drop: one reader holds the guard and
      a writer sleeps, uncounted. The last reader's drop re-allows writes but
      wakes only the readers, so the accessor goes idle and the writer sleeps on. */
  lemma UncountedReaderDropStrandsWriter()
    ensures var s := State(1, true, false, 0, false);
            && Inv(s) && Asleep(s, Waiters(0, 1))
            && ReleaseRead(s).Done?
            && Strands(ReleaseRead(s).value.next, ReleaseRead(s).value.wake, Waiters(0, 1))
  {
  }

  /** The evidently intended bookkeeping of a write acquire: a writer counts
      itself in `writers_waiting` before it waits. */
  function ParkWriter(s: State): (r: State)
    ensures r.writersWaiting == s.writersWaiting + 1
    ensures r.(writersWaiting := s.writersWaiting) == s
    ensures Inv(s) ==> Inv(r)
  {
    s.(writersWaiting := s.writersWaiting + 1)
  }

  /** A counted writer proceeds once writes are allowed, counting itself out
      as it takes the exclusive guard. */
  function AdmitWriter(s: State): (r: Outcome<State>)
    requires s.writersWaiting > 0
    ensures r == Blocked <==> !s.writeAllowed
    ensures !r.Panic?
    ensures r.Done? ==> r.value.writersWaiting == s.writersWaiting - 1
    ensures r.Done? ==> r.value == WriteStep(s).value.(writersWaiting := s.writersWaiting - 1)
    ensures r.Done? && Inv(s) ==> Inv(r.value)
  {
    match WriteStep(s)
    case Done(n) => Done(n.(writersWaiting := s.writersWaiting - 1))
    case Blocked => Blocked
    case Panic(f) => Panic(f)
  }

  /** With the counting bookkeeping, `writers_waiting` keeps matching the
      waiting writers: a writer that falls asleep is counted, and a waiting
      writer that is admitted once writes are allowed is counted out. */
  lemma CountingKeepsWritersMatched(s: State, w: Waiters)
    requires Inv(s) && s.writersWaiting == w.writers
    ensures Asleep(s, w) && !s.writeAllowed ==>
              var p := ParkWriter(s);
              Inv(p) && Asleep(p, Waiters(w.readers, w.writers + 1)) && p.writersWaiting == w.writers + 1
    ensures w.writers > 0 && s.writeAllowed ==>
              && AdmitWriter(s).Done?
              && var n := AdmitWriter(s).value;
                 Inv(n) && Asleep(n, Waiters(w.readers, w.writers - 1)) && n.writersWaiting == w.writers - 1
  {
  }

  /** The counterexample state with the sleeping writer counted: the drop now
      wakes it, and it can take the guard. */
  lemma CountedWriterIsWoken()
    ensures var s := ParkWriter(State(0, false, false, 0, true));
            && ReleaseWrite(s).wake == OneWriter
            && !Strands(ReleaseWrite(s).next, ReleaseWrite(s).wake, Waiters(0, 1))
            && AdmitWriter(ReleaseWrite(s).next).Done?
  {
  }
}

=== FILE: common.dfy ===
/** Shared vocabulary of the ECS model: type tags, entity ids, the optional
    slot value, and the outcome of an operation that may block or panic. */
module Common {

  /** Stands for a Rust `TypeId`: the identity of a component type. */
  type TypeTag = nat

  /** An entity id (`usize` in the crate); used as an index into every storage. */
  type EntityId = nat

  /** Rust's `Option`, used for storage slots and returned components. */
  datatype Option<T> = None | Some(value: T)

  /** The fatal conditions of the crate, one per `panic!`, failed `assert_eq!`,
      out-of-bounds index or debug-build integer overflow in the modelled code. */
  datatype Fault =
    | NotRegistered                 // checkout of a type that was never registered
    | AlreadyRegistered             // registering the same component type twice
    | DowncastFailed                // Arc<dyn Any> downcast to the wrong Storage<T>
    | TypeMismatch                  // guard used with a type other than its accessor's
    | IndexOutOfBounds              // Vec indexing past its length
    | ReaderOverflow                // `readers += 1` past the counter's width
    | ReaderUnderflow               // `readers -= 1` at zero
    | ImpossibleFlags(writeAllowed: bool, readAllowed: bool)  // release with a flag pair it cannot interpret

  /** What a call does: completes with a value, blocks the calling thread on a
      condition variable, or panics. */
  datatype Outcome<T> = Done(value: T) | Blocked | Panic(fault: Fault)
}

=== FILE: counted_traces.dfy ===
/** Interleavings of the corrected protocol, in which a writer that has to wait
    counts itself in `writers_waiting` (`Accessors.ParkWriter`) and counts itself
    out when it is admitted (`Accessors.AdmitWriter`). A configuration pairs the
    accessor state with the threads inside a wait loop: asleep on a condition
    variable, or woken and not yet past their re-check. */
module CountedTraces {
  import opened Common
  import opened Accessors

  datatype Config = Config(s: State, w: Waiters)

  datatype Event =
    | BeginRead    // a reader arrives and reads are allowed
    | ParkRead     // a reader arrives and has to wait
    | WokenRead    // a waiting reader re-checks and takes a read guard
    | BeginWrite   // a writer arrives and writes are allowed
    | ParkWrite    // a writer arrives, has to wait, and counts itself
    | WokenWrite   // a waiting writer re-checks, takes the guard and counts itself out
    | EndRead
    | EndWrite

  /** The corrected protocol's invariant: a protocol state whose
      `writers_waiting` is exactly the number of waiting writers. */
  predicate Matched(c: Config, readerMax: nat) {
    Inv(c.s) && Fits(c.s, readerMax) && c.s.writersWaiting == c.w.writers
  }

  /** The configuration of a fresh accessor with nobody waiting. */
  function Start(): (c: Config)
    ensures Idle(c.s) && c.w == Waiters(0, 0)
    ensures forall readerMax: nat :: Matched(c, readerMax)
  {
    Config(Init(), Waiters(0, 0))
  }

  /** One atomic step, or None when the event cannot happen in `c`. */
  function Step(c: Config, e: Event, readerMax: nat): (r: Option<Config>)
    ensures e == BeginRead ==> (r.Some? <==> c.s.readAllowed && c.s.readers < readerMax)
    ensures e == ParkRead ==> (r.Some? <==> !c.s.readAllowed)
    ensures e == WokenRead ==> (r.Some? <==> c.w.readers > 0 && c.s.readAllowed && c.s.readers < readerMax)
    ensures e == BeginWrite ==> (r.Some? <==> c.s.writeAllowed)
    ensures e == ParkWrite ==> (r.Some? <==> !c.s.writeAllowed)
    ensures e == WokenWrite ==> (r.Some? <==> c.w.writers > 0 && c.s.writersWaiting > 0 && c.s.writeAllowed)
    ensures e == EndRead ==> (r.Some? <==> c.s.readers > 0)
    ensures e == EndWrite ==> (r.Some? <==> c.s.writerActive)
    ensures r.Some? && Matched(c, readerMax) ==> Matched(r.value, readerMax)
  {
    var s, w := c.s, c.w;
    match e
    case BeginRead =>
      (match ReadStep(s, readerMax) case Done(n) => Some(Config(n, w)) case _ => None)
    case ParkRead =>
      if s.readAllowed then None else Some(Config(s, Waiters(w.readers + 1, w.writers)))
    case WokenRead =>
      if w.readers == 0 then None
      else (match ReadStep(s, readerMax)
            case Done(n) => Some(Config(n, Waiters(w.readers - 1, w.writers)))
            case _ => None)
    case BeginWrite =>
      (match WriteStep(s) case Done(n) => Some(Config(n, w)) case _ => None)
    case ParkWrite =>
      if s.writeAllowed then None else Some(Config(ParkWriter(s), Waiters(w.readers, w.writers + 1)))
    case WokenWrite =>
      if w.writers == 0 || s.writersWaiting == 0 then None
      else (match AdmitWriter(s)
            case Done(n) => Some(Config(n, Waiters(w.readers, w.writers - 1)))
            case _ => None)
    case EndRead =>
      if s.readers == 0 then None
      else (match ReleaseRead(s) case Done(rel) => Some(Config(rel.next, w)) case _ => None)
    case EndWrite =>
      if s.writerActive then Some(Config(ReleaseWrite(s).next, w)) else None
  }

  /** The configuration after a whole interleaving, or None if some step was
      not enabled. */
  function Run(c: Config, t: seq<Event>, readerMax: nat): Option<Config>
    decreases |t|
  {
    if t == [] then Some(c)
    else match Step(c, t[0], readerMax)
      case None => None
      case Some(n) => Run(n, t[1..], readerMax)
  }

  /** Every interleaving keeps `writers_waiting` equal to the number of
      waiting writers, and the state a protocol state. */
  lemma {:induction false} RunKeepsMatched(c: Config, t: seq<Event>, readerMax: nat)
    requires Matched(c, readerMax)
    ensures Run(c, t, readerMax).Some? ==> Matched(Run(c, t, readerMax).value, readerMax)
    decreases |t|
  {
    if t != [] {
      match Step(c, t[0], readerMax)
      case None =>
      case Some(n) => RunKeepsMatched(n, t[1..], readerMax);
    }
  }

  /** In every configuration the corrected protocol reaches from a fresh
      accessor, the count matches, no release of a held guard loses a wake-up,
      and an idle accessor with a waiting writer lets that writer in. */
  lemma ReachableNeverStrands(t: seq<Event>, readerMax: nat)
    ensures Run(Start(), t, readerMax).Some? ==>
              var c := Run(Start(), t, readerMax).value;
              && c.s.writersWaiting == c.w.writers
              && (c.s.readers > 0 ==>
                    ReleaseRead(c.s).Done? && !Strands(ReleaseRead(c.s).value.next, ReleaseRead(c.s).value.wake, c.w))
              && (c.s.writerActive ==> !Strands(ReleaseWrite(c.s).next, ReleaseWrite(c.s).wake, c.w))
              && (Idle(c.s) && c.w.writers > 0 ==> Step(c, WokenWrite, readerMax).Some?)
  {
    RunKeepsMatched(Start(), t, readerMax);
    if Run(Start(), t, readerMax).Some? {
      var c := Run(Start(), t, readerMax).value;
      WriterPriorityNeverStrands(c.s, c.w);
    }
  }

  /** The stranding scenario replayed in the corrected protocol: a writer holds
      the guard, a second writer parks (and is counted), the first drops its
      guard, and the second is admitted. */
  lemma CountedScenarioAdmitsWriter()
    ensures Run(Start(), [BeginWrite, ParkWrite, EndWrite, WokenWrite], U16Max)
            == Some(Config(State(0, false, false, 0, true), Waiters(0, 0)))
  {
  }

  /** The reader-drop scenario replayed in the corrected protocol: a reader
      holds the guard, a writer parks (and is counted), the reader drops its
      guard, and the writer is admitted. */
  lemma CountedReaderDropAdmitsWriter()
    ensures Run(Start(), [BeginRead, ParkWrite, EndRead, WokenWrite], U16Max)
            == Some(Config(State(0, false, false, 0, true), Waiters(0, 0)))
  {
  }
}

=== FILE: entity_counters.dfy ===
/** The entity-id allocator of src/entity.rs: no active set, and a
    `rm_entity` that does nothing yet, so the dead list is never filled. */
module EntityCounters {
  import opened Common

  datatype Entities = Entities(numEntities: nat, dead: seq<EntityId>)

  /** `Entities::new`. */
  function New(): (e: Entities)
    ensures e.numEntities == 0 && e.dead == []
  {
    Entities(0, [])
  }

  /** `get_next_id`: pop a dead id if there is one, otherwise `num_entities`.
      That a fresh id equals every storage's length is a property of the world,
      stated by `Worlds.FreshIdIsStorageLength`. */
  function GetNextId(e: Entities): (r: (EntityId, Entities))
    ensures |e.dead| == 0 ==> r.0 == e.numEntities && r.1 == e
    ensures |e.dead| > 0 ==> r.0 == e.dead[|e.dead| - 1] && r.1 == e.(dead := e.dead[..|e.dead| - 1])
  {
    if |e.dead| > 0 then (e.dead[|e.dead| - 1], e.(dead := e.dead[..|e.dead| - 1]))
    else (e.numEntities, e)
  }

  /** `new_entity_id`: the next id; `num_entities` grows by one either way. */
  function NewEntityId(e: Entities): (r: (EntityId, Entities))
    ensures r.1.numEntities == e.numEntities + 1
    ensures |e.dead| == 0 ==> r.0 == e.numEntities && r.1.dead == []
    ensures |e.dead| > 0 ==> r.0 == e.dead[|e.dead| - 1] && r.1.dead == e.dead[..|e.dead| - 1]
  {
    var (id, popped) := GetNextId(e);
    (id, popped.(numEntities := popped.numEntities + 1))
  }

  /** `rm_entity`: always false, nothing changes. */
  function RmEntity(e: Entities, x: EntityId): (r: (bool, Entities))
    ensures !r.0 && r.1 == e
  {
    (false, e)
  }

  /** A call on the allocator. */
  datatype Op = Create | Remove(id: EntityId)

  /** The ids issued by a sequence of calls, and the allocator afterwards. */
  function Issue(e: Entities, ops: seq<Op>): (seq<EntityId>, Entities)
    decreases |ops|
  {
    if ops == [] then ([], e)
    else match ops[0]
      case Create =>
        var (id, next) := NewEntityId(e);
        var (rest, last) := Issue(next, ops[1..]);
        ([id] + rest, last)
      case Remove(x) =>
        Issue(RmEntity(e, x).1, ops[1..])
  }

  /** The number of `Create` calls in `ops`. */
  function Creates(ops: seq<Op>): nat
    decreases |ops|
  {
    if ops == [] then 0 else (if ops[0] == Create then 1 else 0) + Creates(ops[1..])
  }

  /** With nothing dead, ids are issued consecutively from `num_entities`,
      whatever removals are interleaved, and the dead list stays empty. */
  lemma {:induction false} IssueCountsUp(e: Entities, ops: seq<Op>)
    requires e.dead == []
    ensures Issue(e, ops).0 == seq(Creates(ops), i => e.numEntities + i)
    ensures Issue(e, ops).1 == Entities(e.numEntities + Creates(ops), [])
    decreases |ops|
  {
    if ops != [] {
      match ops[0]
      case Create =>
        var next := NewEntityId(e).1;
        IssueCountsUp(next, ops[1..]);
      case Remove(x) =>
        IssueCountsUp(e, ops[1..]);
    }
  }

  /** On a fresh allocator, three allocations yield 0, 1 and 2. */
  lemma ThreeAllocations()
    ensures Issue(New(), [Create, Create, Create]).0 == [0, 1, 2]
  {
    IssueCountsUp(New(), [Create, Create, Create]);
  }
}

=== FILE: entity_sets.dfy ===
/** The entity-id allocator of src/entity/mod.rs: a set of active ids and a
    stack of dead ids that are handed out again last-in first-out. */
module EntitySets {
  import opened Common

  /** `num_entities` counts every id handed out, recycled ones included. */
  datatype Entities = Entities(numEntities: nat, active: set<EntityId>, dead: seq<EntityId>)

  /** The allocator's invariant: active and dead ids are disjoint, the dead
      stack holds no id twice, and every id it knows was issued below `num_entities`. */
  predicate Inv(e: Entities) {
    && (forall x :: x in e.active ==> x < e.numEntities)
    && (forall i :: 0 <= i < |e.dead| ==> e.dead[i] < e.numEntities && e.dead[i] !in e.active)
    && (forall i, j :: 0 <= i < j < |e.dead| ==> e.dead[i] != e.dead[j])
  }

  /** `Entities::new`. */
  function New(): (e: Entities)
    ensures e.numEntities == 0 && e.active == {} && e.dead == []
    ensures Inv(e)
  {
    Entities(0, {}, [])
  }

  /** `get_next_id`: pop the most recently removed id, or use `num_entities`. */
  function GetNextId(e: Entities): (r: (EntityId, Entities))
    ensures |e.dead| == 0 ==> r.0 == e.numEntities && r.1 == e
    ensures |e.dead| > 0 ==> r.0 == e.dead[|e.dead| - 1] && r.1 == e.(dead := e.dead[..|e.dead| - 1])
  {
    if |e.dead| == 0 then (e.numEntities, e)
    else (e.dead[|e.dead| - 1], e.(dead := e.dead[..|e.dead| - 1]))
  }

  /** `new_entity_id`: take the next id, mark it active, count one more issue. */
  function NewEntityId(e: Entities): (r: (EntityId, Entities))
    ensures r.1.numEntities == e.numEntities + 1
    ensures r.1.active == e.active + {r.0}
    ensures |e.dead| == 0 ==> r.0 == e.numEntities && r.1.dead == []
    ensures |e.dead| > 0 ==> r.0 == e.dead[|e.dead| - 1] && r.1.dead == e.dead[..|e.dead| - 1]
    ensures Inv(e) ==> r.0 !in e.active && r.0 < e.numEntities + 1 && Inv(r.1)
  {
    var (id, popped) := GetNextId(e);
    (id, popped.(active := popped.active + {id}, numEntities := popped.numEntities + 1))
  }

  /** `rm_entity`: an active id moves to the dead stack and true is returned;
      any other id changes nothing and false is returned. */
  function RmEntity(e: Entities, x: EntityId): (r: (bool, Entities))
    ensures r.0 <==> x in e.active
    ensures r.0 ==> r.1 == Entities(e.numEntities, e.active - {x}, e.dead + [x])
    ensures !r.0 ==> r.1 == e
    ensures Inv(e) ==> Inv(r.1)
  {
    if x in e.active then (true, Entities(e.numEntities, e.active - {x}, e.dead + [x]))
    else (false, e)
  }

  /** LIFO recycling: of two removed ids, the later is handed out first. */
  lemma RecyclingIsLifo(e: Entities, x: EntityId, y: EntityId)
    requires Inv(e) && x in e.active && y in e.active && x != y
    ensures var e1 := RmEntity(RmEntity(e, x).1, y).1;
            && NewEntityId(e1).0 == y
            && NewEntityId(NewEntityId(e1).1).0 == x
  {
    var e1 := RmEntity(RmEntity(e, x).1, y).1;
    assert e1.dead == e.dead + [x, y];
    assert NewEntityId(e1).1.dead == e.dead + [x];
  }

  /** A call on the allocator. */
  datatype Op = Create | Remove(id: EntityId)

  /** The allocator after a sequence of calls. */
  function Apply(e: Entities, ops: seq<Op>): Entities
    decreases |ops|
  {
    if ops == [] then e
    else
      var next := match ops[0]
        case Create => NewEntityId(e).1
        case Remove(x) => RmEntity(e, x).1;
      Apply(next, ops[1..])
  }

  /** Whatever calls are made, active and dead ids stay disjoint, so the id a
      `new_entity_id` issues is never one that is already active. */
  lemma {:induction false} ApplyKeepsInv(e: Entities, ops: seq<Op>)
    requires Inv(e)
    ensures Inv(Apply(e, ops))
    ensures NewEntityId(Apply(e, ops)).0 !in Apply(e, ops).active
    decreases |ops|
  {
    if ops != [] {
      var next := match ops[0]
        case Create => NewEntityId(e).1
        case Remove(x) => RmEntity(e, x).1;
      ApplyKeepsInv(next, ops[1..]);
    }
  }
}

=== FILE: flag_releases.dfy ===
/** The two earlier release implementations, which keep no record of the
    guard's kind and infer it from the flag pair instead: (false, false) means a
    writer is leaving, (false, true) a reader; any other pair panics. They share
    the state effect and differ in which condition variables they notify:
    src/accessor.rs alternates ("flip-flop"), src/accessor/mod.rs always wakes
    the readers. Their counters are `u8` and they have no `writers_waiting`;
    the model's field is simply never read here. */
module FlagReleases {
  import opened Common
  import opened Accessors

  /** The state effect common to both flag-inferred releases. */
  function InferredNext(s: State): (r: Outcome<State>)
    ensures r.Panic? <==> s.writeAllowed || (s.readAllowed && s.readers == 0)
    ensures s.writeAllowed ==> r == Panic(ImpossibleFlags(true, s.readAllowed))
    ensures !s.writeAllowed && s.readAllowed && s.readers == 0 ==> r == Panic(ReaderUnderflow)
    ensures !r.Blocked?
    ensures r.Done? && !s.readAllowed ==>
              r.value.readAllowed && r.value.writeAllowed && !r.value.writerActive && r.value.readers == s.readers
    ensures r.Done? && s.readAllowed ==>
              && r.value.readers == s.readers - 1 && r.value.readAllowed
              && (r.value.writeAllowed <==> r.value.readers == 0)
              && r.value.writerActive == s.writerActive
    ensures r.Done? ==> r.value.writersWaiting == s.writersWaiting
  {
    match (s.writeAllowed, s.readAllowed)
    case (false, false) =>
      Done(s.(writeAllowed := true, readAllowed := true, writerActive := false))
    case (false, true) =>
      if s.readers == 0 then Panic(ReaderUnderflow)
      else
        var n := s.readers - 1;
        Done(s.(readers := n, writeAllowed := n == 0))
    case (w, r) =>
      Panic(ImpossibleFlags(w, r))
  }

  /** `Drop for AccessGuard` in src/accessor.rs: a leaving writer wakes all
      readers; the last leaving reader wakes one writer; other readers wake nobody. */
  function ReleaseFlipFlop(s: State): (r: Outcome<Release>)
    ensures r.Panic? <==> InferredNext(s).Panic?
    ensures r.Done? ==> r.value.next == InferredNext(s).value
    ensures r.Done? && !s.readAllowed ==> r.value.wake == AllReaders
    ensures r.Done? && s.readAllowed ==> (r.value.wake == OneWriter <==> r.value.next.readers == 0)
    ensures r.Done? && s.readAllowed ==> (r.value.wake == Nobody <==> r.value.next.readers > 0)
  {
    match InferredNext(s)
    case Done(n) =>
      Done(Release(n, if !s.readAllowed then AllReaders else if n.readers == 0 then OneWriter else Nobody))
    case Blocked => Blocked
    case Panic(f) => Panic(f)
  }

  /** `Drop for AccessGuard` in src/accessor/mod.rs: the last leaving reader
      wakes one writer, and every release, whichever kind, wakes all readers. */
  function ReleaseNotifyAll(s: State): (r: Outcome<Release>)
    ensures r.Panic? <==> InferredNext(s).Panic?
    ensures r.Done? ==> r.value.next == InferredNext(s).value
    ensures r.Done? ==> WakesReaders(r.value.wake)
    ensures r.Done? ==> (WakesWriter(r.value.wake) <==> s.readAllowed && r.value.next.readers == 0)
  {
    match InferredNext(s)
    case Done(n) =>
      Done(Release(n, if s.readAllowed && n.readers == 0 then OneWriterAndAllReaders else AllReaders))
    case Blocked => Blocked
    case Panic(f) => Panic(f)
  }

  /** Under the protocol invariant, with a guard held, the flag pair identifies
      the guard's kind correctly: the inferred release has exactly the state
      effect of the kind-aware release of src/storage/storage_guard.rs, and never panics. */
  lemma InferredAgreesWithGuardRelease(s: State)
    requires Inv(s) && !Idle(s)
    ensures InferredNext(s).Done?
    ensures s.readers > 0 ==> InferredNext(s).value == ReleaseRead(s).value.next
    ensures s.writerActive ==> InferredNext(s).value == ReleaseWrite(s).next
  {
  }

  /** Releasing while writes are allowed always panics; the invariant rules
      this out whenever somebody holds a guard. */
  lemma ReleaseWhileWritableIsFatal(s: State)
    requires s.writeAllowed
    ensures ReleaseFlipFlop(s) == Panic(ImpossibleFlags(true, s.readAllowed))
    ensures ReleaseNotifyAll(s) == Panic(ImpossibleFlags(true, s.readAllowed))
  {
  }

  /** The Writing state with no other holder. */
  function Writing(): State {
    State(0, false, false, 0, true)
  }

  /** Counterexample for src/accessor.rs: a writer drops while a second writer
      sleeps and no reader waits. Only the readers' condition variable is
      notified, so the sleeping writer is never woken although writes are allowed. */
  lemma FlipFlopStrandsWriter()
    ensures Inv(Writing()) && Asleep(Writing(), Waiters(0, 1))
    ensures ReleaseFlipFlop(Writing()).Done?
    ensures Strands(ReleaseFlipFlop(Writing()).value.next, ReleaseFlipFlop(Writing()).value.wake, Waiters(0, 1))
  {
  }

  /** The same counterexample for src/accessor/mod.rs. */
  lemma NotifyAllStrandsWriter()
    ensures ReleaseNotifyAll(Writing()).Done?
    ensures Strands(ReleaseNotifyAll(Writing()).value.next, ReleaseNotifyAll(Writing()).value.wake, Waiters(0, 1))
  {
  }

  /** src/accessor.rs with the writer drop also waking one writer, as the later
      writer-priority release of src/storage/storage_guard.rs does. */
  function ReleaseFlipFlopFixed(s: State): (r: Outcome<Release>)
    ensures r.Panic? <==> InferredNext(s).Panic?
    ensures r.Done? ==> r.value.next == InferredNext(s).value
    ensures r.Done? && !s.readAllowed ==> r.value.wake == OneWriterAndAllReaders
    ensures r.Done? && s.readAllowed ==> r.value.wake == ReleaseFlipFlop(s).value.wake
  {
    match InferredNext(s)
    case Done(n) =>
      Done(Release(n, if !s.readAllowed then OneWriterAndAllReaders else if n.readers == 0 then OneWriter else Nobody))
    case Blocked => Blocked
    case Panic(f) => Panic(f)
  }

  /** src/accessor/mod.rs with the writer drop also waking one writer. */
  function ReleaseNotifyAllFixed(s: State): (r: Outcome<Release>)
    ensures r.Panic? <==> InferredNext(s).Panic?
    ensures r.Done? ==> r.value.next == InferredNext(s).value
    ensures r.Done? ==> WakesReaders(r.value.wake)
    ensures r.Done? ==> (WakesWriter(r.value.wake) <==> !s.readAllowed || r.value.next.readers == 0)
  {
    match InferredNext(s)
    case Done(n) =>
      Done(Release(n, if !s.readAllowed || n.readers == 0 then OneWriterAndAllReaders else AllReaders))
    case Blocked => Blocked
    case Panic(f) => Panic(f)
  }

  /** The corrected flip-flop release never loses a wake-up. */
  lemma FlipFlopFixedNeverStrands(s: State, w: Waiters)
    requires Inv(s) && !Idle(s) && Asleep(s, w)
    ensures ReleaseFlipFlopFixed(s).Done?
    ensures !Strands(ReleaseFlipFlopFixed(s).value.next, ReleaseFlipFlopFixed(s).value.wake, w)
  {
  }

  /** The corrected notify-all release never loses a wake-up. */
  lemma NotifyAllFixedNeverStrands(s: State, w: Waiters)
    requires Inv(s) && !Idle(s) && Asleep(s, w)
    ensures ReleaseNotifyAllFixed(s).Done?
    ensures !Strands(ReleaseNotifyAllFixed(s).value.next, ReleaseNotifyAllFixed(s).value.wake, w)
  {
  }
}

=== FILE: storages.dfy ===
/** A component storage (src/storage/mod.rs) and the guards over it
    (src/storage/storage_guard.rs). The slot vector may be touched only while a
    guard granted by the storage's own accessor is held; that is a precondition
    of every slot operation here. */
module Storages {
  import opened Common
  import opened Accessors
  import VecStorages

  /** `Storage`: the component type, its accessor and the slot vector. */
  datatype Storage<V> = Storage(componentType: TypeTag, accessor: Accessor, inner: seq<Option<V>>)

  /** `Storage::new` as written: `Vec::with_capacity` reserves room but holds
      no element, and `fill_with` overwrites only existing elements, so the
      vector is empty whatever the estimate. */
  function NewStorage<V>(componentType: TypeTag, numEntsEstimate: nat): (st: Storage<V>)
    ensures st.componentType == componentType
    ensures st.accessor == NewAccessor(componentType)
    ensures |st.inner| == 0
  {
    Storage(componentType, NewAccessor(componentType), [])
  }

  /** The estimate is lost: a storage created for three entities has no slot
      for entity 0, and a read of it is out of bounds. */
  lemma NewStorageIgnoresEstimate()
    ensures |NewStorage<int>(0, 3).inner| != 3
    ensures VecStorages.At(NewStorage<int>(0, 3).inner, 0) == Panic(IndexOutOfBounds)
  {
  }

  /** A storage with `n` empty slots, as `Storage::new` evidently meant to build. */
  function NewStorageSized<V>(componentType: TypeTag, n: nat): (st: Storage<V>)
    ensures st.componentType == componentType
    ensures st.accessor == NewAccessor(componentType)
    ensures |st.inner| == n
    ensures forall e :: 0 <= e < n ==> VecStorages.At(st.inner, e) == Done(None)
  {
    Storage(componentType, NewAccessor(componentType), seq(n, _ => None))
  }

  /** Some guard (shared or exclusive) granted by this storage's accessor is held. */
  predicate Held<V>(st: Storage<V>) {
    st.accessor.state.readers > 0 || st.accessor.state.writerActive
  }

  /** The exclusive guard is held. */
  predicate WriteHeld<V>(st: Storage<V>) {
    st.accessor.state.writerActive
  }

  /** The two guard kinds. */
  datatype Mode = Shared | Exclusive

  /** A guard handed out for a storage; acquisition happens when it is opened. */
  datatype Guard<V> = Guard(mode: Mode, storage: Storage<V>)

  /** Opening a guard: the blocking acquire of src/accessor.rs matching its kind. */
  function Open<V>(g: Guard<V>, requested: TypeTag, readerMax: nat): (r: Outcome<Guard<V>>)
    ensures g.storage.accessor.typeId != requested ==> r == Panic(TypeMismatch)
    ensures r.Done? ==> r.value.mode == g.mode
    ensures r.Done? ==> r.value.storage.inner == g.storage.inner && r.value.storage.componentType == g.storage.componentType
    ensures r.Done? ==> Held(r.value.storage)
    ensures r.Done? && g.mode == Exclusive ==> WriteHeld(r.value.storage)
    ensures g.mode == Exclusive ==> (r == Blocked <==> g.storage.accessor.typeId == requested && !g.storage.accessor.state.writeAllowed)
    ensures g.mode == Shared ==> (r == Blocked <==> g.storage.accessor.typeId == requested && !g.storage.accessor.state.readAllowed)
    ensures g.mode == Shared ==> (r.Done? <==> AcquireRead(g.storage.accessor, requested, readerMax).Done?)
    ensures g.mode == Exclusive ==> (r.Done? <==> AcquireWrite(g.storage.accessor, requested).Done?)
    ensures r.Done? && g.mode == Shared ==> r.value.storage.accessor == AcquireRead(g.storage.accessor, requested, readerMax).value
    ensures r.Done? && g.mode == Exclusive ==> r.value.storage.accessor == AcquireWrite(g.storage.accessor, requested).value
    ensures r.Panic? && g.storage.accessor.typeId == requested ==> g.mode == Shared && r.fault == ReaderOverflow
  {
    var a := if g.mode == Shared then AcquireRead(g.storage.accessor, requested, readerMax)
             else AcquireWrite(g.storage.accessor, requested);
    match a
    case Done(acc) => Done(g.(storage := g.storage.(accessor := acc)))
    case Blocked => Blocked
    case Panic(f) => Panic(f)
  }

  /** `ImmutableStorageGuard::get` and `MutableStorageGuard::get_mut`: slot `e`;
      an id past the vector's end panics. */
  function Get<V>(st: Storage<V>, e: EntityId): (r: Outcome<Option<V>>)
    requires Held(st)
    ensures r.Done? <==> e < |st.inner|
    ensures r.Done? ==> r.value == st.inner[e]
    ensures r.Panic? ==> r.fault == IndexOutOfBounds
  {
    VecStorages.At(st.inner, e)
  }

  /** `iter`/`iter_mut`: every slot, empty ones included, in id order. */
  function Iter<V>(st: Storage<V>): seq<Option<V>>
    requires Held(st)
  {
    st.inner
  }

  /** Iteration yields exactly what `get` yields, id by id, and nothing more. */
  lemma IterAgreesWithGet<V>(st: Storage<V>)
    requires Held(st)
    ensures |Iter(st)| == |st.inner|
    ensures forall e :: 0 <= e < |Iter(st)| ==> Get(st, e) == Done(Iter(st)[e])
    ensures forall e :: e >= |Iter(st)| ==> Get(st, e).Panic?
  {
  }

  /** Replacing slot `e` while the exclusive guard is held, returning what was
      there: an assignment through the element `iter_mut` yields for `e`, or
      through the vector `raw_mut` hands out. (`get_mut` returns a shared
      reference, so it can only read; `Get` models it.) */
  function Replace<V>(st: Storage<V>, e: EntityId, x: Option<V>): (r: Outcome<(Storage<V>, Option<V>)>)
    requires WriteHeld(st)
    ensures r.Done? <==> e < |st.inner|
    ensures r.Panic? ==> r.fault == IndexOutOfBounds
    ensures r.Done? ==> r.value.1 == st.inner[e]
    ensures r.Done? ==> r.value.0.accessor == st.accessor && r.value.0.componentType == st.componentType
    ensures r.Done? ==> |r.value.0.inner| == |st.inner| && r.value.0.inner[e] == x
    ensures r.Done? ==> forall i :: 0 <= i < |st.inner| && i != e ==> r.value.0.inner[i] == st.inner[i]
  {
    match VecStorages.Put(st.inner, e, x)
    case Done(s) => Done((st.(inner := s), st.inner[e]))
    case Blocked => Blocked
    case Panic(f) => Panic(f)
  }

  /** Writing back what `Replace` returned undoes it, and a read through the
      guard then sees the value written. */
  lemma ReplaceRoundTrip<V>(st: Storage<V>, e: EntityId, x: Option<V>)
    requires WriteHeld(st) && e < |st.inner|
    ensures Get(Replace(st, e, x).value.0, e) == Done(x)
    ensures Replace(Replace(st, e, x).value.0, e, Replace(st, e, x).value.1) == Done((st, x))
  {
    var p := Replace(st, e, x).value;
    assert p.0.inner[e := st.inner[e]] == st.inner;
  }

  /** A whole write session on the storage: take the exclusive guard, replace
      slot `e` with `x`, drop the guard. The accessor ends where it started. */
  function Exchange<V>(st: Storage<V>, requested: TypeTag, e: EntityId, x: Option<V>): (r: Outcome<(Storage<V>, Option<V>)>)
    ensures st.accessor.typeId != requested ==> r == Panic(TypeMismatch)
    ensures st.accessor.typeId == requested ==> (r == Blocked <==> !st.accessor.state.writeAllowed)
    ensures st.accessor.typeId == requested && st.accessor.state.writeAllowed ==> (r.Done? <==> e < |st.inner|)
    ensures r.Panic? && st.accessor.typeId == requested ==> r.fault == IndexOutOfBounds
    ensures r.Done? ==> r.value.1 == st.inner[e] && r.value.0.componentType == st.componentType
    ensures r.Done? ==> |r.value.0.inner| == |st.inner| && r.value.0.inner[e] == x
    ensures r.Done? ==> forall i :: 0 <= i < |st.inner| && i != e ==> r.value.0.inner[i] == st.inner[i]
    ensures r.Done? && Inv(st.accessor.state) ==> r.value.0.accessor == st.accessor
  {
    match AcquireWrite(st.accessor, requested)
    case Done(acc) =>
      (match Replace(st.(accessor := acc), e, x)
       case Done(p) =>
         var closed := acc.(state := ReleaseWrite(acc.state).next);
         Done((p.0.(accessor := closed), p.1))
       case Blocked => Blocked
       case Panic(f) => Panic(f))
    case Blocked => Blocked
    case Panic(f) => Panic(f)
  }
}

=== FILE: vec_storages.dfy ===
/** Slot vectors: a `Vec<Option<T>>` indexed by entity id. `At` and `Put` are
    Rust's bounds-checked `v[e]` read and write (an index past the end panics);
    `VecStorage` is the generic newtype of src/storage.rs built on them. */
module VecStorages {
  import opened Common

  /** Reading slot `e`. */
  function At<T>(slots: seq<Option<T>>, e: EntityId): (r: Outcome<Option<T>>)
    ensures r.Done? <==> e < |slots|
    ensures r.Done? ==> r.value == slots[e]
    ensures !r.Done? ==> r == Panic(IndexOutOfBounds)
  {
    if e < |slots| then Done(slots[e]) else Panic(IndexOutOfBounds)
  }

  /** Writing `x` into slot `e` through a mutable reference to it. */
  function Put<T>(slots: seq<Option<T>>, e: EntityId, x: Option<T>): (r: Outcome<seq<Option<T>>>)
    ensures r.Done? <==> e < |slots|
    ensures !r.Done? ==> r == Panic(IndexOutOfBounds)
    ensures r.Done? ==> |r.value| == |slots| && r.value[e] == x
    ensures r.Done? ==> forall i :: 0 <= i < |slots| && i != e ==> r.value[i] == slots[i]
  {
    if e < |slots| then Done(slots[e := x]) else Panic(IndexOutOfBounds)
  }

  /** Reading back a slot just written yields the value written, and every
      other slot reads as before. */
  lemma PutThenAt<T>(slots: seq<Option<T>>, e: EntityId, x: Option<T>, i: EntityId)
    requires e < |slots|
    ensures At(Put(slots, e, x).value, e) == Done(x)
    ensures i != e ==> At(Put(slots, e, x).value, i) == At(slots, i)
  {
  }

  /** `VecStorage<T>`: dereferences to its vector, so its length and iteration
      order are the vector's own. */
  datatype VecStorage<T> = VecStorage(slots: seq<Option<T>>)

  /** `VecStorage::new`: no slots. */
  function New<T>(): (v: VecStorage<T>)
    ensures |v.slots| == 0
  {
    VecStorage([])
  }

  /** `query`: slot `e`, leaving the storage as it is. */
  function Query<T>(v: VecStorage<T>, e: EntityId): (r: Outcome<Option<T>>)
    ensures r.Done? <==> e < |v.slots|
    ensures r.Done? ==> r.value == v.slots[e]
    ensures r.Panic? ==> r.fault == IndexOutOfBounds
  {
    At(v.slots, e)
  }

  /** Assigning `x` through the reference `mut_query` returns. */
  function MutQuery<T>(v: VecStorage<T>, e: EntityId, x: Option<T>): (r: Outcome<VecStorage<T>>)
    ensures r.Done? <==> e < |v.slots|
    ensures r.Panic? ==> r.fault == IndexOutOfBounds
    ensures r.Done? ==> |r.value.slots| == |v.slots| && r.value.slots[e] == x
    ensures r.Done? ==> forall i :: 0 <= i < |v.slots| && i != e ==> r.value.slots[i] == v.slots[i]
  {
    match Put(v.slots, e, x)
    case Done(s) => Done(VecStorage(s))
    case Blocked => Blocked
    case Panic(f) => Panic(f)
  }

  /** Round trip: after writing `Some(c)` or `None` at `e`, `query(e)` returns it
      and every other slot is unchanged. */
  lemma MutQueryThenQuery<T>(v: VecStorage<T>, e: EntityId, x: Option<T>, i: EntityId)
    requires e < |v.slots|
    ensures Query(MutQuery(v, e, x).value, e) == Done(x)
    ensures i != e ==> Query(MutQuery(v, e, x).value, i) == Query(v, i)
  {
    PutThenAt(v.slots, e, x, i);
  }
}

=== FILE: warehouses.dfy ===
/** The warehouse of src/warehouse.rs: every storage of the world, keyed by
    component type, plus one maintenance function per registered type. A
    maintenance function is represented by the type tag it was generated for. */
module Warehouses {
  import opened Common
  import opened Accessors
  import opened Storages

  datatype Warehouse<V> = Warehouse(
    capacity: nat,                       // exact length of every storage's vector
    storages: map<TypeTag, Storage<V>>,
    maintenance: seq<TypeTag>)

  /** A storage correctly filed under `t`: built for `t`, as long as the
      warehouse's capacity, and its accessor in a protocol state. */
  predicate Boxed<V>(st: Storage<V>, t: TypeTag, capacity: nat) {
    && st.componentType == t
    && st.accessor.typeId == t
    && |st.inner| == capacity
    && Accessors.Inv(st.accessor.state)
    && Fits(st.accessor.state, U16Max)
  }

  /** Every storage is filed under its own type and has length `capacity`;
      there is exactly one maintenance function per registered type. */
  predicate Inv<V>(w: Warehouse<V>) {
    && (forall t :: t in w.storages ==> Boxed(w.storages[t], t, w.capacity))
    && (forall t :: t in w.storages ==> t in w.maintenance)
    && (forall i :: 0 <= i < |w.maintenance| ==> w.maintenance[i] in w.storages)
    && (forall i, j :: 0 <= i < j < |w.maintenance| ==> w.maintenance[i] != w.maintenance[j])
  }

  /** `Warehouse::new`. */
  function New<V>(): (w: Warehouse<V>)
    ensures w.capacity == 0 && w.storages == map[] && w.maintenance == []
    ensures Inv(w)
  {
    Warehouse(0, map[], [])
  }

  /** `StorageBox::clone_storage_arc`: the downcast back to the requested
      `Storage<T>` panics when the boxed storage is of another type. */
  function CloneStorageArc<V>(boxed: Storage<V>, requested: TypeTag): (r: Outcome<Storage<V>>)
    ensures r.Done? <==> boxed.componentType == requested
    ensures r.Done? ==> r.value == boxed
    ensures !r.Done? ==> r == Panic(DowncastFailed)
  {
    if boxed.componentType == requested then Done(boxed) else Panic(DowncastFailed)
  }

  /** `checkout_storage`: a shared guard over the storage registered for the
      type; an unregistered type panics. The warehouse itself is not changed. */
  function CheckoutStorage<V>(w: Warehouse<V>, requested: TypeTag): (r: Outcome<Guard<V>>)
    ensures requested !in w.storages ==> r == Panic(NotRegistered)
    ensures r.Done? ==> r.value == Guard(Shared, w.storages[requested])
    ensures Inv(w) && requested in w.storages ==> r.Done?
  {
    if requested in w.storages then
      match CloneStorageArc(w.storages[requested], requested)
      case Done(st) => Done(Guard(Shared, st))
      case Blocked => Blocked
      case Panic(f) => Panic(f)
    else Panic(NotRegistered)
  }

  /** `checkout_storage_mut`: the same lookup, handing out an exclusive guard. */
  function CheckoutStorageMut<V>(w: Warehouse<V>, requested: TypeTag): (r: Outcome<Guard<V>>)
    ensures requested !in w.storages ==> r == Panic(NotRegistered)
    ensures r.Done? ==> r.value == Guard(Exclusive, w.storages[requested])
    ensures Inv(w) && requested in w.storages ==> r.Done?
  {
    if requested in w.storages then
      match CloneStorageArc(w.storages[requested], requested)
      case Done(st) => Done(Guard(Exclusive, st))
      case Blocked => Blocked
      case Panic(f) => Panic(f)
    else Panic(NotRegistered)
  }

  /** Under the invariant, a checked-out guard is never refused for its type
      when it is opened: the accessor was built for the same tag. */
  lemma CheckedOutGuardsMatchType<V>(w: Warehouse<V>, t: TypeTag)
    requires Inv(w) && t in w.storages
    ensures Open(CheckoutStorage(w, t).value, t, U16Max) != Panic(TypeMismatch)
    ensures Open(CheckoutStorageMut(w, t).value, t, U16Max) != Panic(TypeMismatch)
    ensures Idle(w.storages[t].accessor.state) ==> Open(CheckoutStorageMut(w, t).value, t, U16Max).Done?
  {
  }

  /** A storage with `extra` more empty slots at the end. */
  function Pad<V>(st: Storage<V>, extra: nat): (r: Storage<V>)
    ensures r.componentType == st.componentType && r.accessor == st.accessor
    ensures |r.inner| == |st.inner| + extra
    ensures forall e :: 0 <= e < |st.inner| ==> r.inner[e] == st.inner[e]
    ensures forall e :: |st.inner| <= e < |r.inner| ==> r.inner[e] == None
  {
    st.(inner := st.inner + seq(extra, _ => None))
  }

  /** Growing every storage by `extra` slots when entities are added; the old
      slots keep their contents and the new ones are empty. */
  function GrowAll<V>(w: Warehouse<V>, extra: nat): (r: Warehouse<V>)
    ensures r.capacity == w.capacity + extra
    ensures r.storages.Keys == w.storages.Keys && r.maintenance == w.maintenance
    ensures forall t :: t in w.storages ==> r.storages[t] == Pad(w.storages[t], extra)
    ensures Inv(w) ==> Inv(r)
  {
    Warehouse(w.capacity + extra, map t | t in w.storages :: Pad(w.storages[t], extra), w.maintenance)
  }

  /** A storage with entity `e`'s slot emptied (when it has one). */
  function Blank<V>(st: Storage<V>, e: EntityId): (r: Storage<V>)
    ensures r.componentType == st.componentType && r.accessor == st.accessor
    ensures |r.inner| == |st.inner|
    ensures e < |st.inner| ==> r.inner[e] == None
    ensures forall i :: 0 <= i < |st.inner| && i != e ==> r.inner[i] == st.inner[i]
  {
    if e < |st.inner| then st.(inner := st.inner[e := None]) else st
  }

  /** Emptying entity `e`'s slot in every storage; the invariant is kept. */
  function BlankAll<V>(w: Warehouse<V>, e: EntityId): (r: Warehouse<V>)
    ensures r.capacity == w.capacity && r.maintenance == w.maintenance
    ensures r.storages.Keys == w.storages.Keys
    ensures forall t :: t in w.storages ==> r.storages[t] == Blank(w.storages[t], e)
    ensures Inv(w) ==> Inv(r)
  {
    Warehouse(w.capacity, map t | t in w.storages :: Blank(w.storages[t], e), w.maintenance)
  }

  /** Growing by one slot and then emptying slot `id`, for an id no larger
      than the old capacity: `id`'s slot is empty in every storage and every
      other old slot keeps its contents. */
  lemma GrowThenBlank<V>(w: Warehouse<V>, id: EntityId)
    requires Inv(w) && id <= w.capacity
    ensures var r := BlankAll(GrowAll(w, 1), id);
            && r.storages.Keys == w.storages.Keys
            && (forall t :: t in r.storages ==> |r.storages[t].inner| == w.capacity + 1 && r.storages[t].inner[id] == None)
            && (forall t, e :: t in w.storages && 0 <= e < w.capacity && e != id ==>
                  r.storages[t].inner[e] == w.storages[t].inner[e])
  {
    var g := GrowAll(w, 1);
    var r := BlankAll(g, id);
    forall t | t in r.storages
      ensures |r.storages[t].inner| == w.capacity + 1 && r.storages[t].inner[id] == None
    {
      assert r.storages[t] == Blank(g.storages[t], id);
    }
    forall t, e | t in w.storages && 0 <= e < w.capacity && e != id
      ensures r.storages[t].inner[e] == w.storages[t].inner[e]
    {
      assert r.storages[t] == Blank(g.storages[t], id);
      assert g.storages[t] == Pad(w.storages[t], 1);
    }
  }
}

=== FILE: worlds.dfy ===
/** The world of src/world.rs: the entity allocator of src/entity/mod.rs and
    the warehouse. The crate leaves these bodies as `todo!()`; what is modelled
    is what their doc comments promise, built from the operations of the other
    modules. A component is written by a write session on its storage (take the
    exclusive guard, replace the slot, drop the guard), so it blocks while any
    other guard on that storage is held. */
module Worlds {
  import opened Common
  import opened Accessors
  import opened Storages
  import EntitySets
  import Warehouses

  datatype World<V> = World(entities: EntitySets.Entities, warehouse: Warehouses.Warehouse<V>)

  /** The warehouse and allocator invariants, and every storage has a slot for
      every id the allocator can have issued. */
  predicate Inv<V>(w: World<V>) {
    && Warehouses.Inv(w.warehouse)
    && EntitySets.Inv(w.entities)
    && w.warehouse.capacity == w.entities.numEntities
  }

  /** No guard is held on any storage. */
  predicate Quiescent<V>(w: World<V>) {
    forall t :: t in w.warehouse.storages ==> Idle(w.warehouse.storages[t].accessor.state)
  }

  /** Every dead entity's slot is empty in every storage. */
  predicate Maintained<V>(w: World<V>) {
    forall t, i :: t in w.warehouse.storages && 0 <= i < |w.entities.dead| ==>
      VecStorages.At(w.warehouse.storages[t].inner, w.entities.dead[i]) == Done(None)
  }

  /** `World::new`: an empty allocator and an empty warehouse. */
  function New<V>(): (w: World<V>)
    ensures w.entities == EntitySets.New() && w.warehouse == Warehouses.New()
    ensures Inv(w) && Quiescent(w) && Maintained(w)
  {
    World(EntitySets.New(), Warehouses.New())
  }

  /** Issuing an id and giving every storage a slot for it, and nothing more.
      An id recycled from the dead stack keeps whatever components it had when
      it was removed, unless `maintain_ecs` ran in between. */
  function CreateEntityUncleared<V>(w: World<V>): (r: (EntityId, World<V>))
    ensures (r.0, r.1.entities) == EntitySets.NewEntityId(w.entities)
    ensures r.1.warehouse == Warehouses.GrowAll(w.warehouse, 1)
    ensures Quiescent(w) ==> Quiescent(r.1)
    ensures Inv(w) ==> r.0 <= w.warehouse.capacity && r.0 !in w.entities.active
    ensures Inv(w) ==> Inv(r.1)
  {
    var (id, entities) := EntitySets.NewEntityId(w.entities);
    (id, World(entities, Warehouses.GrowAll(w.warehouse, 1)))
  }

  /** A recycled id is not blank: register a type, create entity 0, give it a
      component, remove it, and create an entity again without maintenance.
      The id 0 comes back with the old component still in its slot. */
  lemma RecycledEntityKeepsComponents()
    ensures var w0 := RegisterComponent(New<int>(), 5).value;
            var (a, w1) := CreateEntityUncleared(w0);
            AddComponent(w1, 5, a, 42).Done? &&
            var w2 := AddComponent(w1, 5, a, 42).value.0;
            var (b, w3) := CreateEntityUncleared(RmEntity(w2, a).1);
            && a == 0 && b == 0 && 5 in w3.warehouse.storages
            && VecStorages.At(w3.warehouse.storages[5].inner, b) == Done(Some(42))
  {
    var w0 := RegisterComponent(New<int>(), 5).value;
    var (a, w1) := CreateEntityUncleared(w0);
    assert Inv(w1) && Quiescent(w1);
  }

  /** `create_entity`: issue an id, give every storage a slot for it, and
      empty that id's slot everywhere, so the entity is blank as documented
      even when its id is recycled before `maintain_ecs` has run. */
  function CreateEntity<V>(w: World<V>): (r: (EntityId, World<V>))
    ensures (r.0, r.1.entities) == EntitySets.NewEntityId(w.entities)
    ensures r.1.warehouse == Warehouses.BlankAll(Warehouses.GrowAll(w.warehouse, 1), r.0)
    ensures Quiescent(w) ==> Quiescent(r.1)
    ensures Inv(w) ==> r.0 <= w.warehouse.capacity && r.0 !in w.entities.active
    ensures Inv(w) ==> Inv(r.1)
  {
    var (id, w') := CreateEntityUncleared(w);
    (id, w'.(warehouse := Warehouses.BlankAll(w'.warehouse, id)))
  }

  /** A newly created entity is blank: it has no component in any storage,
      whether its id is fresh or recycled, and every other entity's slots are
      as they were. */
  lemma CreatedEntityIsBlank<V>(w: World<V>)
    requires Inv(w)
    ensures CreateEntity(w).1.warehouse.storages.Keys == w.warehouse.storages.Keys
    ensures forall t :: t in CreateEntity(w).1.warehouse.storages ==>
              VecStorages.At(CreateEntity(w).1.warehouse.storages[t].inner, CreateEntity(w).0) == Done(None)
    ensures forall t, e :: t in w.warehouse.storages && 0 <= e < w.warehouse.capacity && e != CreateEntity(w).0 ==>
              VecStorages.At(CreateEntity(w).1.warehouse.storages[t].inner, e) == VecStorages.At(w.warehouse.storages[t].inner, e)
  {
    var (id, w') := CreateEntity(w);
    var ws := w'.warehouse.storages;
    assert w'.warehouse == Warehouses.BlankAll(Warehouses.GrowAll(w.warehouse, 1), id);
    Warehouses.GrowThenBlank(w.warehouse, id);
    forall t | t in ws
      ensures VecStorages.At(ws[t].inner, id) == Done(None)
    {
      assert ws[t].inner[id] == None;
    }
    forall t, e | t in w.warehouse.storages && 0 <= e < w.warehouse.capacity && e != id
      ensures VecStorages.At(ws[t].inner, e) == VecStorages.At(w.warehouse.storages[t].inner, e)
    {
      assert ws[t].inner[e] == w.warehouse.storages[t].inner[e];
    }
  }

  /** The same scenario as `RecycledEntityKeepsComponents` with the corrected
      `create_entity`: the recycled id comes back blank. */
  lemma RecycledEntityIsBlank()
    ensures var w0 := RegisterComponent(New<int>(), 5).value;
            var (a, w1) := CreateEntity(w0);
            AddComponent(w1, 5, a, 42).Done? &&
            var w2 := AddComponent(w1, 5, a, 42).value.0;
            var (b, w3) := CreateEntity(RmEntity(w2, a).1);
            && a == 0 && b == 0 && 5 in w3.warehouse.storages
            && VecStorages.At(w3.warehouse.storages[5].inner, b) == Done(None)
  {
    var w0 := RegisterComponent(New<int>(), 5).value;
    var (a, w1) := CreateEntity(w0);
    assert Inv(w1) && Quiescent(w1);
  }

  /** With no dead id to recycle, the new id is the storages' length before
      the entity is added, and the slot added for it is the last one. */
  lemma FreshIdIsStorageLength<V>(w: World<V>)
    requires Inv(w) && |w.entities.dead| == 0
    ensures CreateEntity(w).0 == w.warehouse.capacity
    ensures forall t :: t in w.warehouse.storages ==>
              |CreateEntity(w).1.warehouse.storages[t].inner| == |w.warehouse.storages[t].inner| + 1 == CreateEntity(w).0 + 1
  {
  }

  /** `rm_entity`: delegates to the allocator; components stay in the storages
      until `maintain_ecs` runs. */
  function RmEntity<V>(w: World<V>, e: EntityId): (r: (bool, World<V>))
    ensures r.0 <==> e in w.entities.active
    ensures r.1.entities == EntitySets.RmEntity(w.entities, e).1
    ensures r.1.warehouse == w.warehouse
    ensures Inv(w) ==> Inv(r.1)
  {
    var (existed, entities) := EntitySets.RmEntity(w.entities, e);
    (existed, w.(entities := entities))
  }

  /** `register_component`: a second registration of a type panics; otherwise
      an empty storage with one slot per entity is filed under the type, where
      the map had no entry, and its maintenance function is added. */
  function RegisterComponent<V>(w: World<V>, t: TypeTag): (r: Outcome<World<V>>)
    ensures t in w.warehouse.storages <==> r == Panic(AlreadyRegistered)
    ensures t !in w.warehouse.storages ==> r.Done?
    ensures r.Done? ==> r.value.entities == w.entities && r.value.warehouse.capacity == w.warehouse.capacity
    ensures r.Done? ==> r.value.warehouse.storages == w.warehouse.storages[t := NewStorageSized(t, w.warehouse.capacity)]
    ensures r.Done? ==> r.value.warehouse.maintenance == w.warehouse.maintenance + [t]
    ensures r.Done? && Inv(w) ==> Inv(r.value)
    ensures r.Done? && Quiescent(w) ==> Quiescent(r.value)
    ensures r.Done? && Inv(w) && Maintained(w) ==> Maintained(r.value)
  {
    if t in w.warehouse.storages then Panic(AlreadyRegistered)
    else
      var wh := w.warehouse;
      Done(w.(warehouse := wh.(storages := wh.storages[t := NewStorageSized(t, wh.capacity)],
                               maintenance := wh.maintenance + [t])))
  }

  /** Registration is once only: registering a type that was just registered panics. */
  lemma RegisterTwicePanics<V>(w: World<V>, t: TypeTag)
    requires t !in w.warehouse.storages
    ensures RegisterComponent(RegisterComponent(w, t).value, t) == Panic(AlreadyRegistered)
  {
  }

  /** Writing `x` into entity `e`'s slot of type `t`'s storage in one write
      session, returning what the slot held. */
  function SetComponent<V>(w: World<V>, t: TypeTag, e: EntityId, x: Option<V>): (r: Outcome<(World<V>, Option<V>)>)
    ensures t !in w.warehouse.storages ==> r == Panic(NotRegistered)
    ensures Inv(w) && Quiescent(w) && t in w.warehouse.storages ==>
              (r.Done? <==> e < w.warehouse.capacity) && (r.Panic? ==> r.fault == IndexOutOfBounds)
    ensures r.Done? ==> t in w.warehouse.storages && e < |w.warehouse.storages[t].inner|
    ensures r.Done? ==> r.value.1 == w.warehouse.storages[t].inner[e]
    ensures r.Done? ==> r.value.0.entities == w.entities
    ensures r.Done? ==> r.value.0.warehouse.storages.Keys == w.warehouse.storages.Keys
    ensures r.Done? ==> r.value.0.warehouse.storages[t].inner == w.warehouse.storages[t].inner[e := x]
    ensures r.Done? ==> forall u :: u in w.warehouse.storages && u != t ==>
              r.value.0.warehouse.storages[u] == w.warehouse.storages[u]
    ensures r.Done? && Inv(w) ==> Inv(r.value.0)
    ensures r.Done? && Inv(w) && Quiescent(w) ==> Quiescent(r.value.0)
  {
    match Warehouses.CheckoutStorageMut(w.warehouse, t)
    case Done(g) =>
      (match Exchange(g.storage, t, e, x)
       case Done(p) =>
         var wh := w.warehouse;
         Done((w.(warehouse := wh.(storages := wh.storages[t := p.0])), p.1))
       case Blocked => Blocked
       case Panic(f) => Panic(f))
    case Blocked => Blocked
    case Panic(f) => Panic(f)
  }

  /** `add_component`: puts the component in the entity's slot and returns the
      component it replaced, if any. */
  function AddComponent<V>(w: World<V>, t: TypeTag, e: EntityId, c: V): (r: Outcome<(World<V>, Option<V>)>)
    ensures t !in w.warehouse.storages ==> r == Panic(NotRegistered)
    ensures Inv(w) && Quiescent(w) && t in w.warehouse.storages ==> (r.Done? <==> e < w.warehouse.capacity)
    ensures r.Done? ==> t in w.warehouse.storages && t in r.value.0.warehouse.storages
    ensures r.Done? ==> e < |w.warehouse.storages[t].inner| && r.value.1 == w.warehouse.storages[t].inner[e]
    ensures r.Done? ==> VecStorages.At(r.value.0.warehouse.storages[t].inner, e) == Done(Some(c))
    ensures r.Done? ==> r.value.0.entities == w.entities
    ensures r.Done? ==> r.value.0.warehouse.storages.Keys == w.warehouse.storages.Keys
    ensures r.Done? ==> r.value.0.warehouse.storages[t].inner == w.warehouse.storages[t].inner[e := Some(c)]
    ensures r.Done? ==> forall u :: u in w.warehouse.storages && u != t ==>
              r.value.0.warehouse.storages[u] == w.warehouse.storages[u]
    ensures r.Done? && Inv(w) ==> Inv(r.value.0)
  {
    SetComponent(w, t, e, Some(c))
  }

  /** `rm_component`: empties the entity's slot and returns what it held, None
      if it held nothing. */
  function RmComponent<V>(w: World<V>, t: TypeTag, e: EntityId): (r: Outcome<(World<V>, Option<V>)>)
    ensures t !in w.warehouse.storages ==> r == Panic(NotRegistered)
    ensures Inv(w) && Quiescent(w) && t in w.warehouse.storages ==> (r.Done? <==> e < w.warehouse.capacity)
    ensures r.Done? ==> t in w.warehouse.storages && t in r.value.0.warehouse.storages
    ensures r.Done? ==> e < |w.warehouse.storages[t].inner| && r.value.1 == w.warehouse.storages[t].inner[e]
    ensures r.Done? ==> VecStorages.At(r.value.0.warehouse.storages[t].inner, e) == Done(None)
    ensures r.Done? ==> r.value.0.entities == w.entities
    ensures r.Done? ==> r.value.0.warehouse.storages.Keys == w.warehouse.storages.Keys
    ensures r.Done? ==> r.value.0.warehouse.storages[t].inner == w.warehouse.storages[t].inner[e := None]
    ensures r.Done? ==> forall u :: u in w.warehouse.storages && u != t ==>
              r.value.0.warehouse.storages[u] == w.warehouse.storages[u]
    ensures r.Done? && Inv(w) ==> Inv(r.value.0)
  {
    SetComponent(w, t, e, None)
  }

  /** Round trip: a component added and then removed comes back out, and the
      slot is left empty; the world is otherwise as it was before the add. */
  lemma AddThenRemove<V>(w: World<V>, t: TypeTag, e: EntityId, c: V)
    requires Inv(w) && Quiescent(w) && t in w.warehouse.storages && e < w.warehouse.capacity
    ensures AddComponent(w, t, e, c).Done?
    ensures var w1 := AddComponent(w, t, e, c).value.0;
            && RmComponent(w1, t, e).Done?
            && RmComponent(w1, t, e).value.1 == Some(c)
            && RmComponent(w1, t, e).value.0.warehouse.storages[t].inner == w.warehouse.storages[t].inner[e := None]
  {
    var w1 := AddComponent(w, t, e, c).value.0;
    assert Inv(w1) && Quiescent(w1);
    assert w1.warehouse.storages[t].inner[e] == Some(c);
    assert w1.warehouse.storages[t].inner[e := None] == w.warehouse.storages[t].inner[e := None];
  }

  /** With nothing to recycle, `create_entity` issues `num_entities`, and the
      allocator and every storage grow by one. */
  lemma CreateEntityCountsUp<V>(w: World<V>)
    requires |w.entities.dead| == 0
    ensures CreateEntity(w).0 == w.entities.numEntities
    ensures CreateEntity(w).1.entities.numEntities == w.entities.numEntities + 1
    ensures CreateEntity(w).1.entities.dead == []
    ensures CreateEntity(w).1.warehouse.capacity == w.warehouse.capacity + 1
  {
  }

  /** Three entities created in a new world get ids 0, 1 and 2, and every
      storage then has three slots. */
  lemma FirstEntitiesCountUp<V>()
    ensures var w1 := CreateEntity(New<V>()).1;
            var w2 := CreateEntity(w1).1;
            && CreateEntity(New<V>()).0 == 0 && CreateEntity(w1).0 == 1 && CreateEntity(w2).0 == 2
            && CreateEntity(w2).1.warehouse.capacity == 3
  {
    var w0 := New<V>();
    CreateEntityCountsUp(w0);
    var w1 := CreateEntity(w0).1;
    CreateEntityCountsUp(w1);
    var w2 := CreateEntity(w1).1;
    CreateEntityCountsUp(w2);
  }

  /** The loop of a maintenance function: for each dead entity in turn, a
      write session on the storage that empties the entity's slot. */
  method ClearSlots<V>(st: Storage<V>, t: TypeTag, dead: seq<EntityId>) returns (r: Storage<V>)
    requires st.accessor.typeId == t && Accessors.Inv(st.accessor.state) && Idle(st.accessor.state)
    requires forall i :: 0 <= i < |dead| ==> dead[i] < |st.inner|
    ensures r.accessor == st.accessor && r.componentType == st.componentType
    ensures |r.inner| == |st.inner|
    ensures forall i :: 0 <= i < |dead| ==> r.inner[dead[i]] == None
    ensures forall e :: 0 <= e < |st.inner| && e !in dead ==> r.inner[e] == st.inner[e]
  {
    r := st;
    var k := 0;
    while k < |dead|
      invariant 0 <= k <= |dead|
      invariant r.accessor == st.accessor && r.componentType == st.componentType
      invariant |r.inner| == |st.inner|
      invariant forall i :: 0 <= i < k ==> r.inner[dead[i]] == None
      invariant forall e :: 0 <= e < |st.inner| && e !in dead[..k] ==> r.inner[e] == st.inner[e]
    {
      var p := Exchange(r, t, dead[k], None).value;
      r := p.0;
      k := k + 1;
    }
    assert dead[..k] == dead;
  }

  /** The maintenance function registered for `t` (`maintain_storage::<T>`):
      check out `t`'s storage and empty the slot of every dead entity. Only
      that storage changes, and its accessor ends as it started. */
  method MaintainStorage<V>(wh: Warehouses.Warehouse<V>, t: TypeTag, dead: seq<EntityId>)
    returns (r: Warehouses.Warehouse<V>)
    requires Warehouses.Inv(wh) && t in wh.storages && Idle(wh.storages[t].accessor.state)
    requires forall i :: 0 <= i < |dead| ==> dead[i] < wh.capacity
    ensures r.capacity == wh.capacity && r.maintenance == wh.maintenance
    ensures t in r.storages && r.storages == wh.storages[t := r.storages[t]]
    ensures r.storages[t].accessor == wh.storages[t].accessor
    ensures r.storages[t].componentType == wh.storages[t].componentType
    ensures |r.storages[t].inner| == wh.capacity
    ensures forall i :: 0 <= i < |dead| ==> r.storages[t].inner[dead[i]] == None
    ensures forall e :: 0 <= e < wh.capacity && e !in dead ==> r.storages[t].inner[e] == wh.storages[t].inner[e]
  {
    var g := Warehouses.CheckoutStorageMut(wh, t).value;
    var st := ClearSlots(g.storage, t, dead);
    r := wh.(storages := wh.storages[t := st]);
  }

  /** Every storage of the warehouse is idle. */
  ghost predicate AllIdle<V>(wh: Warehouses.Warehouse<V>) {
    forall u :: u in wh.storages ==> Idle(wh.storages[u].accessor.state)
  }

  /** The storages of the types in `ts` hold nothing for the dead entities. */
  ghost predicate Cleared<V>(wh: Warehouses.Warehouse<V>, ts: seq<TypeTag>, dead: seq<EntityId>) {
    forall u, i :: u in ts && u in wh.storages && 0 <= i < |dead| && dead[i] < |wh.storages[u].inner| ==>
      wh.storages[u].inner[dead[i]] == None
  }

  /** Every slot of a live entity holds what it held in `w0`. */
  ghost predicate LiveKept<V>(w0: Warehouses.Warehouse<V>, cur: Warehouses.Warehouse<V>, dead: seq<EntityId>) {
    forall u, e :: u in cur.storages && u in w0.storages && 0 <= e < w0.capacity && e !in dead &&
                   e < |cur.storages[u].inner| && e < |w0.storages[u].inner| ==>
      cur.storages[u].inner[e] == w0.storages[u].inner[e]
  }

  /** A prefix of `s` extended by the next element is the next prefix. */
  lemma PrefixGrows<T>(s: seq<T>, k: nat)
    requires k < |s|
    ensures s[..k] + [s[k]] == s[..k + 1]
  {
  }

  /** Every storage keeps the accessor and component type it had in `w0`. */
  ghost predicate HeadersKept<V>(w0: Warehouses.Warehouse<V>, cur: Warehouses.Warehouse<V>) {
    forall u :: u in cur.storages && u in w0.storages ==>
      && cur.storages[u].accessor == w0.storages[u].accessor
      && cur.storages[u].componentType == w0.storages[u].componentType
  }

  /** Replacing one storage by one with the same accessor and component type
      keeps every storage's accessor and component type. */
  lemma MaintainStepKeepsHeaders<V>(w0: Warehouses.Warehouse<V>, cur: Warehouses.Warehouse<V>, n: Warehouses.Warehouse<V>, t: TypeTag)
    requires HeadersKept(w0, cur) && t in cur.storages
    requires t in n.storages && n.storages == cur.storages[t := n.storages[t]]
    requires n.storages[t].accessor == cur.storages[t].accessor
    requires n.storages[t].componentType == cur.storages[t].componentType
    ensures HeadersKept(w0, n)
  {
    forall u | u in n.storages && u in w0.storages && u != t
      ensures n.storages[u] == cur.storages[u]
    {
    }
  }

  /** One maintenance function's effect keeps the warehouse invariant, leaves
      every storage idle, clears one more type's dead slots, and keeps every
      live entity's slots as they were. */
  lemma MaintainStepKeepsInv<V>(w0: Warehouses.Warehouse<V>, cur: Warehouses.Warehouse<V>, n: Warehouses.Warehouse<V>,
                                ts: seq<TypeTag>, t: TypeTag, dead: seq<EntityId>)
    requires Warehouses.Inv(w0) && Warehouses.Inv(cur) && t in cur.storages
    requires w0.storages.Keys == cur.storages.Keys && w0.capacity == cur.capacity
    requires AllIdle(cur) && Cleared(cur, ts, dead) && LiveKept(w0, cur, dead)
    requires forall i :: 0 <= i < |dead| ==> dead[i] < cur.capacity
    requires n.capacity == cur.capacity && n.maintenance == cur.maintenance
    requires t in n.storages && n.storages == cur.storages[t := n.storages[t]]
    requires n.storages[t].accessor == cur.storages[t].accessor
    requires n.storages[t].componentType == cur.storages[t].componentType
    requires |n.storages[t].inner| == cur.capacity
    requires forall i :: 0 <= i < |dead| ==> n.storages[t].inner[dead[i]] == None
    requires forall e :: 0 <= e < cur.capacity && e !in dead ==> n.storages[t].inner[e] == cur.storages[t].inner[e]
    ensures Warehouses.Inv(n) && AllIdle(n)
    ensures Cleared(n, ts + [t], dead) && LiveKept(w0, n, dead)
  {
    forall u | u in n.storages
      ensures Warehouses.Boxed(n.storages[u], u, n.capacity)
    {
      if u != t {
        assert n.storages[u] == cur.storages[u];
      }
    }
    forall u, i | u in ts + [t] && u in n.storages && 0 <= i < |dead| && dead[i] < |n.storages[u].inner|
      ensures n.storages[u].inner[dead[i]] == None
    {
      if u != t {
        assert u in ts;
        assert n.storages[u] == cur.storages[u];
      }
    }
  }

  /** Once every registered type's storage is cleared, the world is maintained. */
  lemma ClearedAllIsMaintained<V>(w: World<V>)
    requires Inv(w) && Cleared(w.warehouse, w.warehouse.maintenance, w.entities.dead)
    ensures Maintained(w)
  {
    forall t, i | t in w.warehouse.storages && 0 <= i < |w.entities.dead|
      ensures VecStorages.At(w.warehouse.storages[t].inner, w.entities.dead[i]) == Done(None)
    {
      assert t in w.warehouse.maintenance;
    }
  }

  /** `maintain_ecs`: runs every registered maintenance function, in
      registration order, over the dead entities. Callers must hold no guard
      (the doc comment asks for them to be dropped first). Afterwards no storage
      holds a component of a dead entity, and nothing else has changed: live
      slots, the allocator, the accessors and the maintenance list are kept. */
  method MaintainEcs<V>(w: World<V>) returns (r: World<V>)
    requires Inv(w) && Quiescent(w)
    ensures r.entities == w.entities
    ensures Inv(r) && Quiescent(r) && Maintained(r)
    ensures r.warehouse.capacity == w.warehouse.capacity && r.warehouse.maintenance == w.warehouse.maintenance
    ensures r.warehouse.storages.Keys == w.warehouse.storages.Keys
    ensures forall t :: t in w.warehouse.storages ==>
              && r.warehouse.storages[t].accessor == w.warehouse.storages[t].accessor
              && r.warehouse.storages[t].componentType == w.warehouse.storages[t].componentType
    ensures forall t, e :: t in w.warehouse.storages && 0 <= e < w.warehouse.capacity && e !in w.entities.dead ==>
              r.warehouse.storages[t].inner[e] == w.warehouse.storages[t].inner[e]
  {
    var dead := w.entities.dead;
    var tags := w.warehouse.maintenance;
    var cur := w.warehouse;
    assert forall i :: 0 <= i < |dead| ==> dead[i] < cur.capacity;
    var k := 0;
    while k < |tags|
      invariant 0 <= k <= |tags|
      invariant Warehouses.Inv(cur) && cur.capacity == w.warehouse.capacity
      invariant cur.maintenance == tags && cur.storages.Keys == w.warehouse.storages.Keys
      invariant AllIdle(cur) && Cleared(cur, tags[..k], dead) && LiveKept(w.warehouse, cur, dead)
      invariant HeadersKept(w.warehouse, cur)
    {
      var t := tags[k];
      var n := MaintainStorage(cur, t, dead);
      MaintainStepKeepsInv(w.warehouse, cur, n, tags[..k], t, dead);
      MaintainStepKeepsHeaders(w.warehouse, cur, n, t);
      PrefixGrows(tags, k);
      cur := n;
      k := k + 1;
    }
    assert tags[..k] == tags;
    r := w.(warehouse := cur);
    ClearedAllIsMaintained(r);
  }
}
